=== FILE: README.md ===
# Coinone SDK client core, modelled in Dafny

This project models the sequential core of `sdk.py`, the synchronous Coinone
exchange client. It covers four pieces:

- **The signed V2.1 payload.** The caller's parameter dict is copied, and
  `access_token` and then `nonce` are assigned in it. The result is written as
  compact JSON, encoded as UTF-8 and then as base64.
- **The signature.** It is the lowercase hexadecimal HMAC-SHA512 of the
  base64 octets, keyed by the UTF-8 octets of the secret key.
- **Response classification.** These are the rules by which the public
  `_get` and the private `_post_v21` turn an HTTP response into a returned
  body or one of the two exception classes. The private call checks its
  credentials first.
- **Order and chart arguments.** `place_order` assembles its order dict and
  `get_chart` assembles its query.

## Modules

- `Json` (json.dfy) holds the decoded JSON value: null, bool, int, str,
  list, dict. A dict is an ordered list of `Field(key, value)` entries.
  Python's `None` and JSON `null` are the same value, as they are after
  `json.loads`.
- `Dicts` gives Python dict semantics on that ordered list. A lookup returns
  the first match. Assignment overwrites an existing key where it stands and
  appends a new key at the end. `SetIfGiven`/`SetEach` model
  `if x is not None: d[k] = x`.
- `JsonPrint` is `json.dumps(..., separators=(",", ":"), ensure_ascii=False)`.
  `JsonParse` is a reader for that text. It exists to state that the text
  determines the value.
- `Utf8`, `Base64` (the alphabet and padding of section 4 of RFC 4648) and
  `Hex` are the three encodings, each with its decoder and round trips.
- `Decimal` and `PyStr` model Python's `str()` of an int and of a decoded
  JSON value.
- `Payload` models `_encode_payload_v21` and `_sign`.
- `Errors` models `CoinoneAPIError` and its subclass `CoinoneRateLimitError`.
  Each error has the class, the message, the code (null when there is none)
  and the optional HTTP status.
- `Responses` holds the two classifiers, over an abstract response. The
  response has the status, the text of the `HTTPError` that
  `raise_for_status` would raise, the body as `resp.json()` gives it (None
  when the body is not JSON) and the headers.
- `Coinone` models the client. `Get` is `_get` and `PostV21` is
  `_post_v21`. A call yields an `Exchange`: the request that went out, if
  any, and the outcome. The outcome is a returned body with its headers, a
  raised client error, or another Python exception escaping (`Uncaught`).
- `Orders` models `place_order`, and `Market` models `get_chart`.

The HTTP session, the UUID nonce and HMAC-SHA512 are parameters. They are a
function from request to response, a nonce string, and a function from
(key octets, message octets) to digest octets. The model relies only on
HMAC being a function, so the same key and octets give the same signature.
The caller's parameter dict is an immutable value, so building the signed
body cannot change it.

In three places the code behaves differently from what a reader might
assume; the model follows the code:

- `raise_for_status` raises only for statuses 400–599, not for every
  non-success status. A 1xx or 3xx response therefore takes the JSON path.
- Only two exception classes exist. A missing credential, an HTTP error, an
  unparsable body and an error envelope all raise `CoinoneAPIError`, told
  apart only by message, code and status. The rate-limit subclass is raised
  only on the private path.
- On a 4xx/5xx private response whose JSON body is not a dict, `j.get`
  raises `AttributeError`. The model reports that as
  `Uncaught("AttributeError")` rather than a classified error.

## Model

| member | source | states |
|---|---|---|
| `Payload.SignedBody` | sdk.py:119-121 | the signed body maps `access_token` to the token and `nonce` to the nonce |
| `Payload.SignedBodyKeys` | sdk.py:119-121 | the body's keys are the caller's keys in their order, then `access_token` if new, then `nonce` if new |
| `Payload.SignedBodyKeepsCallerEntries` | sdk.py:119-121 | every caller entry keeps its position; every entry except `access_token` and `nonce` is carried over unchanged |
| `Payload.SignedBodyAppends` | sdk.py:119-121 | when the caller has neither key, the body is the caller's entries followed by the two new entries |
| `Payload.SignedBodyLookupOther` | sdk.py:119-121 | every other key looks up exactly as in the caller's dict |
| `Payload.SignedBodyUniqueKeys` | sdk.py:119-121 | a dict with unique keys stays one |
| `Dicts.Insert` | sdk.py:120-121 | assignment keeps the key list (or appends the new key) and makes the key map to the new value |
| `Dicts.InsertOverwritesInPlace` | sdk.py:120-121 | assigning an existing key rewrites exactly that entry, in its position |
| `Dicts.InsertAppendsNewKey` | sdk.py:120-121 | assigning a missing key appends one entry at the end |
| `JsonPrint.EscapeChar` | sdk.py:122 | a character is written as itself exactly when it is at or above U+0020 and is not `"` or `\`; it is never written as a character below U+0020 |
| `JsonPrint.DumpsNoControl` | sdk.py:122 | the compact JSON text holds no C0 control character (U+0000–U+001F) |
| `JsonPrint.DumpsNoWhitespace` | sdk.py:122 | the compact JSON text of a value with no space in its strings holds no JSON whitespace (space, tab, line feed, carriage return) |
| `JsonPrint.Dumps` | sdk.py:122 | the compact text of a value is never empty; its partner is `JsonParse.ParseJsonDumps`, which reads it back |
| `JsonParse.ParseJsonDumps` | sdk.py:122 | reading the compact JSON text gives back the value |
| `JsonParse.DumpsInjective` | sdk.py:122 | distinct values have distinct compact JSON texts |
| `Utf8.Encode` | sdk.py:123 | a text of n characters encodes to between n and 4n octets, and to none exactly when it is empty; `Utf8.DecodeEncode` inverts it |
| `Utf8.Decode` | sdk.py:140 | decoding never yields more characters than octets; `Utf8.EncodeDecode` inverts it |
| `Utf8.DecodeEncode` | sdk.py:123 | UTF-8 decoding of the encoded text gives back the text |
| `Utf8.EncodeDecode` | sdk.py:140 | octets that decode as UTF-8 are the encoding of their decoded text |
| `Utf8.DecodeAscii` | sdk.py:140 | ASCII octets always decode, one character per octet |
| `Base64.Encode` | sdk.py:123 | the encoding of n octets has 4·⌈n/3⌉ characters |
| `Base64.DecodeEncode` | sdk.py:123 | base64 decoding of the encoding gives back the octets |
| `Base64.EncodeDecode` | sdk.py:123 | text that decodes is the canonical encoding of its octets |
| `Base64.EncodeAlphabet` | sdk.py:123 | every encoded character is in the RFC 4648 alphabet or is padding, hence ASCII |
| `Payload.EncodeText` | sdk.py:122-123 | the encoded payload is ASCII, has 4·⌈n/3⌉ octets for n UTF-8 octets of JSON, and base64-decodes back to those octets |
| `Payload.PayloadText` | sdk.py:122 | no contract of its own: it is the compact `json.dumps` of the signed body; `Payload.PayloadRoundTrip` and `Payload.PayloadTextCompact` state its properties |
| `Payload.EncodePayload` | sdk.py:115-124 | the encoded payload is ASCII and base64-decodes to the UTF-8 octets of the payload text |
| `Payload.PayloadRoundTrip` | sdk.py:115-124 | base64-decoding the payload gives the UTF-8 octets of the JSON text, which decode to the text, which reads back as the signed body |
| `Payload.EncodePayloadInjective` | sdk.py:115-124 | equal encoded payloads carry equal signed bodies |
| `Payload.DistinctNoncesDistinctPayloads` | sdk.py:121-124 | two different nonces give two different encoded payloads, whatever the other inputs |
| `Payload.PayloadTextCompact` | sdk.py:122 | the payload text holds no C0 control character (U+0000–U+001F), and no JSON whitespace (space, tab, line feed, carriage return) when no string in it holds a space |
| `Payload.Sign` | sdk.py:126-128 | the signature is lowercase hexadecimal, twice as long as the digest, and decodes back to the HMAC of the payload octets under the secret key |
| `Hex.Encode` | sdk.py:128 | `hexdigest` writes two digits per octet; `Hex.DecodeEncode` inverts it |
| `Hex.DecodeEncode` | sdk.py:128 | hex-decoding a hex digest gives back the digest octets |
| `Decimal.IntToStringIsFour` | sdk.py:160 | `str(n) == "4"` exactly when n is 4 |
| `PyStr.Str` | sdk.py:160 | no contract of its own: `str()` of a decoded value; `PyStr.StrIsFour` states the one fact the client relies on |
| `PyStr.StrIsFour` | sdk.py:160 | `str(code) == "4"` exactly when the code is the int 4 or the str "4" (not "04", not a list) |
| `Dicts.Get` | sdk.py:63 | `j.get(k)` is the value under k when k is present, and None (JSON null) otherwise |
| `Dicts.GetOr` | sdk.py:64 | `j.get(k, default)` is the value under k when k is present, and the default otherwise |
| `Responses.IsErrorEnvelope` | sdk.py:63 | no contract of its own: a dict whose `result` is "error"; the contracts of both classifiers state what it decides |
| `Responses.ClassifyPublic` | sdk.py:53-66 | once a response has arrived, lets no other exception out and never raises a rate-limit error; returns the body and headers exactly when the status is not 4xx/5xx, the body is JSON and it is not an error envelope; the status goes on the error exactly for HTTP errors and unparsable bodies; an HTTP error carries "HTTP 错误: " and the error text |
| `Responses.ClassifyPrivate` | sdk.py:145-164 | `AttributeError` escapes exactly for a 4xx/5xx response with a non-dict JSON body; returns the body and headers exactly when the status is not 4xx/5xx, the body is JSON and not an error envelope; raises a rate-limit error exactly for a non-4xx/5xx error envelope whose code is the int 4 or the str "4"; the status goes on the error exactly for 4xx/5xx and unparsable bodies; the code is the body's `error_code` |
| `Responses.PrivateMessages` | sdk.py:148-162 | the message is the body's `error_msg` when there is one, else "HTTP 错误", "API 返回了无效的 JSON", "请求频率过高" or "API 错误" by branch |
| `Responses.PublicAgreesWithPrivate` | sdk.py:154-164 | outside 4xx/5xx, the public and private paths give the same outcome for every response except a rate-limit envelope |
| `Responses.PublicNeverRateLimits` | sdk.py:63-64 | on an envelope the private path reports as a rate limit, the public path raises a plain API error with the same code and no status |
| `Coinone.Get` | sdk.py:49-66 | always sends one GET to the public base URL plus the path with the given query and timeout and `Accept: application/json`; the outcome is exactly the public classification of the response, so once a response arrives it never raises a rate-limit error or lets another exception out, and it returns exactly the non-4xx/5xx, non-envelope JSON bodies |
| `Coinone.AsciiText` | sdk.py:140 | the payload header text is the payload octets read as text, so its UTF-8 encoding is those same octets |
| `Coinone.SigningHeaders` | sdk.py:138-142 | the headers carry `Content-type: application/json`, the payload text under `X-COINONE-PAYLOAD` and the signature under `X-COINONE-SIGNATURE` |
| `Coinone.SignedRequest` | sdk.py:135-143 | the POST goes to the private base URL plus the path; its body decodes to the signed body; its content type is JSON; its payload header encodes to the body octets; its signature header is the HMAC signature of the body octets |
| `Coinone.PostV21` | sdk.py:130-164 | nothing is sent exactly when a credential is missing or empty, and then the outcome is a plain API error with the credentials message, no code and no status; otherwise the request sent is the signed request, its body decodes to the signed body and the outcome is the private classification of the response |
| `Coinone.DistinctNoncesDistinctRequests` | sdk.py:136-143 | two private requests with different nonces carry different bodies |
| `Orders.PyBool` | sdk.py:188 | no contract of its own: `bool()` of a decoded value; `Orders.PostOnlyValue` and `Orders.OptionalLookup` state its use |
| `Orders.OrderPayload` | sdk.py:175-194 | no contract of its own: the dict `place_order` builds; `Orders.OrderPayloadFields`, `Orders.OrderPayloadKeys`, `Orders.MandatoryLookup` and `Orders.OptionalLookup` state its shape |
| `Orders.PostOnlyValue` | sdk.py:187-188 | `post_only` is stored only when given, and then as a bool |
| `Orders.OrderPayloadFields` | sdk.py:175-194 | the order dict is the four mandatory entries, then the supplied optional entries in the fixed order `price`, `qty`, `amount`, `post_only`, `limit_price`, `trigger_price`, `user_order_id` |
| `Orders.OrderPayloadKeys` | sdk.py:175-194 | the order dict never repeats a key and holds no key outside those eleven |
| `Orders.MandatoryLookup` | sdk.py:175-180 | the four mandatory keys map to the arguments given |
| `Orders.OptionalLookup` | sdk.py:181-194 | each optional key is present exactly when its argument is not None, with that value, and `post_only` as `bool(post_only)` |
| `Orders.SigningKeysNotInOrder` | sdk.py:175-194 | an order dict never holds `access_token` or `nonce`, so signing appends them rather than overwriting an order field |
| `Orders.PlaceOrder` | sdk.py:166-195 | nothing is sent exactly without credentials, and then the outcome is the credentials error; otherwise the request sent is the signed request for `/v2.1/order` and the order dict, with `Content-type: application/json` and the HMAC signature of the body, whose body decodes to the order dict followed by `access_token` and `nonce`, and the outcome is the private classification of the response |
| `Market.ChartParams` | sdk.py:107-111 | no contract of its own: the query `get_chart` builds; `Market.ChartParamsFields` states its shape |
| `Market.ChartParamsFields` | sdk.py:107-111 | the chart query is `interval`, then `timestamp` and `size`, each only when given |
| `Market.GetChart` | sdk.py:102-112 | one public GET to `/chart/{quote}/{target}` carrying that query and `Accept: application/json`, whose outcome is exactly the public classification of the response |

## Left out

- The HTTP session, connection reuse and timeouts are a transport function from request to response. The timeout is only copied onto the request. Nothing models URL or query-string encoding, or the conversion of response headers to a dict.
- A connection failure or timeout raises a requests exception that escapes `_get` and `_post_v21`, because the call to the session is outside every `try`. The transport function always returns a response, so the model has no such outcome.
- The exact text of the `HTTPError` raised by `raise_for_status` comes from the requests library. It is an input field of the response.
- HMAC-SHA512 is a function parameter, because its internals are a foreign cryptographic primitive. A known-answer test vector is therefore out of reach.
- `uuid.uuid4()` is replaced by a nonce input, because its randomness cannot be stated. The model proves that distinct nonces give distinct payloads.
- Floats are not part of the JSON value. `get_orderbook` is left out because its `order_book_unit` is a float.
- The other public and private wrappers (`get_range_units`, `get_markets`, `get_market`, `get_trades`, `get_tickers`, `get_ticker`, `get_balance_all`, `cancel_all_orders`) are left out. Each fills in a path and at most a fixed query or body for `Get` or `PostV21`.
- PyStr.Str: `repr` of a string inside a container picks quotes and escapes only the backslash, the chosen quote and ASCII control characters. Python also escapes non-printable non-ASCII characters. This only affects codes that are lists or dicts, which are never "4".
- JsonPrint.DumpsNoWhitespace: states that the compact text holds no whitespace only for values whose strings hold no space. `json.dumps` with `separators=(",", ":")` writes no whitespace between tokens for every value, but saying so needs a notion of "outside a string literal" that the model does not define.
- Payload.PayloadTextCompact: states that no whitespace occurs only for values whose strings hold no space. It does not locate the spaces inside string literals.
- JSON text with duplicate keys is not modelled. A response body is the value `json.loads` returned, and its dicts have unique keys. For duplicated keys, `Dicts.Lookup` keeps the first entry, whereas Python keeps the last.
- The reader in `JsonParse` accepts compact JSON text only: no whitespace between tokens and no surrogate-pair `\u` escapes. It also accepts some escapes `json.dumps` never writes, such as `\/`, uppercase hex digits and `\u` for a character that needs no escape. It is used only to show that the payload text determines the signed body.
- Python strings may hold lone surrogates, which `encode("utf-8")` rejects. Dafny strings hold Unicode scalar values only, so that failure is not modelled.

=== FILE: base64.dfy ===
/**
 * The base64 encoding of section 4 of RFC 4648 (standard alphabet, `=`
 * padding), as produced by Python's `base64.b64encode`. Encoded output is
 * a sequence of ASCII octets; the decoder is strict and canonical, so it is
 * a two-sided inverse of the encoder.
 */
module Base64 {
  import opened Options
  import opened Bytes

  /** The padding character `=`. */
  const Pad: byte := 61

  /** The ASCII code of the alphabet character for a 6-bit value. */
  function CharOf(i: int): (c: byte)
    requires 0 <= i < 64
    ensures c < 0x80 && c != Pad
  {
    if i < 26 then 65 + i        // 'A'..'Z'
    else if i < 52 then 71 + i   // 'a'..'z'
    else if i < 62 then i - 4    // '0'..'9'
    else if i == 62 then 43      // '+'
    else 47                      // '/'
  }

  /** The 6-bit value of an alphabet character; None for any other octet. */
  function ValueOf(c: byte): (r: Option<int>)
    ensures r.Some? ==> 0 <= r.value < 64
  {
    if 65 <= c <= 90 then Some(c - 65)
    else if 97 <= c <= 122 then Some(c - 71)
    else if 48 <= c <= 57 then Some(c + 4)
    else if c == 43 then Some(62)
    else if c == 47 then Some(63)
    else None
  }

  lemma CharOfValueOf(c: byte)
    requires ValueOf(c).Some?
    ensures CharOf(ValueOf(c).value) == c
  {
  }

  /** True for the octets the encoder may emit. */
  predicate IsBase64Char(c: byte) {
    ValueOf(c).Some? || c == Pad
  }

  /** Four characters for three octets. */
  function EncodeGroup(b0: byte, b1: byte, b2: byte): seq<byte> {
    [CharOf(b0 / 4), CharOf((b0 % 4) * 16 + b1 / 16), CharOf((b1 % 16) * 4 + b2 / 64), CharOf(b2 % 64)]
  }

  /** The final group for one left-over octet: two characters and two pads. */
  function EncodeLastOne(b0: byte): seq<byte> {
    [CharOf(b0 / 4), CharOf((b0 % 4) * 16), Pad, Pad]
  }

  /** The final group for two left-over octets: three characters and one pad. */
  function EncodeLastTwo(b0: byte, b1: byte): seq<byte> {
    [CharOf(b0 / 4), CharOf((b0 % 4) * 16 + b1 / 16), CharOf((b1 % 16) * 4), Pad]
  }

  /** `base64.b64encode(b)`. */
  function Encode(b: seq<byte>): (r: seq<byte>)
    ensures |r| == 4 * ((|b| + 2) / 3)
    decreases |b|
  {
    if |b| == 0 then []
    else if |b| == 1 then EncodeLastOne(b[0])
    else if |b| == 2 then EncodeLastTwo(b[0], b[1])
    else EncodeGroup(b[0], b[1], b[2]) + Encode(b[3..])
  }

  /**
   * The octets of one group of four characters. `last` says whether padding
   * may appear; unused low bits before padding must be zero.
   */
  function DecodeGroup(t: seq<byte>, last: bool): (r: Option<seq<byte>>)
    requires |t| == 4
    ensures r.Some? ==> 1 <= |r.value| <= 3
    ensures r.Some? && !last ==> |r.value| == 3
  {
    var v0, v1 := ValueOf(t[0]), ValueOf(t[1]);
    if v0.None? || v1.None? then None
    else
      var c0, c1 := v0.value, v1.value;
      if last && t[2] == Pad && t[3] == Pad then
        if c1 % 16 == 0 then Some([c0 * 4 + c1 / 16]) else None
      else
        var v2 := ValueOf(t[2]);
        if v2.None? then None
        else
          var c2 := v2.value;
          if last && t[3] == Pad then
            if c2 % 4 == 0 then Some([c0 * 4 + c1 / 16, (c1 % 16) * 16 + c2 / 4]) else None
          else
            var v3 := ValueOf(t[3]);
            if v3.None? then None
            else Some([c0 * 4 + c1 / 16, (c1 % 16) * 16 + c2 / 4, (c2 % 4) * 64 + v3.value])
  }

  /** Strict decoding: None unless `t` is exactly the encoding of some octets. */
  function Decode(t: seq<byte>): (r: Option<seq<byte>>)
    decreases |t|
  {
    if |t| == 0 then Some([])
    else if |t| < 4 then None
    else
      match DecodeGroup(t[..4], |t| == 4)
      case None => None
      case Some(g) =>
        match Decode(t[4..])
        case None => None
        case Some(rest) => Some(g + rest)
  }

  lemma DecodeGroupEncodeGroup(b0: byte, b1: byte, b2: byte, last: bool)
    ensures DecodeGroup(EncodeGroup(b0, b1, b2), last) == Some([b0, b1, b2])
  {
    var c0, c1, c2, c3 := b0 / 4, (b0 % 4) * 16 + b1 / 16, (b1 % 16) * 4 + b2 / 64, b2 % 64;
    var t := EncodeGroup(b0, b1, b2);
    assert t == [CharOf(c0), CharOf(c1), CharOf(c2), CharOf(c3)];
    ValueOfCharOf(c0);
    ValueOfCharOf(c1);
    ValueOfCharOf(c2);
    ValueOfCharOf(c3);
    assert c1 / 16 == b0 % 4 && c1 % 16 == b1 / 16;
    assert c2 / 4 == b1 % 16 && c2 % 4 == b2 / 64;
    assert c0 * 4 + c1 / 16 == b0;
  }

  lemma ValueOfCharOf(i: int)
    requires 0 <= i < 64
    ensures ValueOf(CharOf(i)) == Some(i)
  {
  }

  lemma DecodeOneOctet(b0: byte)
    ensures Decode(EncodeLastOne(b0)) == Some([b0])
  {
    var t := EncodeLastOne(b0);
    assert ValueOf(t[0]) == Some(b0 / 4);
    assert ValueOf(t[1]) == Some((b0 % 4) * 16);
    assert DecodeGroup(t, true) == Some([b0]);
    assert t[..4] == t;
    assert Decode(t[4..]) == Some([]);
    assert [b0] + [] == [b0];
  }

  lemma DecodeTwoOctets(b0: byte, b1: byte)
    ensures Decode(EncodeLastTwo(b0, b1)) == Some([b0, b1])
  {
    var c1 := (b0 % 4) * 16 + b1 / 16;
    var t := EncodeLastTwo(b0, b1);
    assert c1 / 16 == b0 % 4 && c1 % 16 == b1 / 16;
    assert ValueOf(t[0]) == Some(b0 / 4);
    assert ValueOf(t[1]) == Some(c1);
    assert ValueOf(t[2]) == Some((b1 % 16) * 4);
    assert DecodeGroup(t, true) == Some([b0, b1]);
    assert t[..4] == t;
    assert Decode(t[4..]) == Some([]);
    assert [b0, b1] + [] == [b0, b1];
  }

  /** Decoding proceeds group by group. */
  lemma DecodeAppend(g: seq<byte>, rest: seq<byte>, d: seq<byte>, dRest: seq<byte>)
    requires |g| == 4
    requires DecodeGroup(g, |rest| == 0) == Some(d)
    requires Decode(rest) == Some(dRest)
    ensures Decode(g + rest) == Some(d + dRest)
  {
    var t := g + rest;
    assert t[..4] == g && t[4..] == rest;
  }

  lemma DecodeEncodeShort(b: seq<byte>)
    requires 1 <= |b| <= 2
    ensures Decode(Encode(b)) == Some(b)
  {
    if |b| == 1 {
      DecodeEncodeSingle(b);
    } else {
      DecodeEncodePair(b);
    }
  }

  lemma DecodeEncodeSingle(b: seq<byte>)
    requires |b| == 1
    ensures Decode(Encode(b)) == Some(b)
  {
    assert Encode(b) == EncodeLastOne(b[0]);
    assert b == [b[0]];
    DecodeOneOctet(b[0]);
  }

  lemma DecodeEncodePair(b: seq<byte>)
    requires |b| == 2
    ensures Decode(Encode(b)) == Some(b)
  {
    assert Encode(b) == EncodeLastTwo(b[0], b[1]);
    assert b == [b[0], b[1]];
    DecodeTwoOctets(b[0], b[1]);
  }

  lemma DecodeEncodeGroupStep(b0: byte, b1: byte, b2: byte, tail: seq<byte>)
    requires Decode(Encode(tail)) == Some(tail)
    ensures Decode(Encode([b0, b1, b2] + tail)) == Some([b0, b1, b2] + tail)
  {
    var b := [b0, b1, b2] + tail;
    assert b[3..] == tail;
    var g := EncodeGroup(b0, b1, b2);
    var rest := Encode(tail);
    assert Encode(b) == g + rest;
    DecodeGroupEncodeGroup(b0, b1, b2, |rest| == 0);
    DecodeAppend(g, rest, [b0, b1, b2], tail);
  }

  /** Decoding what was encoded gives back the octets. */
  lemma {:induction false} DecodeEncode(b: seq<byte>)
    ensures Decode(Encode(b)) == Some(b)
    decreases |b|
  {
    if 1 <= |b| <= 2 {
      DecodeEncodeShort(b);
    } else if |b| >= 3 {
      DecodeEncode(b[3..]);
      DecodeEncodeGroupStep(b[0], b[1], b[2], b[3..]);
      assert [b[0], b[1], b[2]] + b[3..] == b;
    }
  }

  lemma EncodeDecodeGroup(t: seq<byte>, last: bool)
    requires |t| == 4 && DecodeGroup(t, last).Some?
    ensures var g := DecodeGroup(t, last).value;
      if |g| == 3 then EncodeGroup(g[0], g[1], g[2]) == t
      else if |g| == 2 then EncodeLastTwo(g[0], g[1]) == t
      else EncodeLastOne(g[0]) == t
  {
    var g := DecodeGroup(t, last).value;
    if |g| == 1 {
      EncodeDecodeGroupOne(t, last);
    } else if |g| == 2 {
      EncodeDecodeGroupTwo(t, last);
    } else {
      EncodeDecodeGroupThree(t, last);
    }
  }

  /** The first octet of a group: six bits of the first character, two of the second. */
  lemma SplitFirst(c0: int, c1: int)
    requires 0 <= c0 < 64 && 0 <= c1 < 64
    ensures (c0 * 4 + c1 / 16) / 4 == c0 && (c0 * 4 + c1 / 16) % 4 == c1 / 16
  {
  }

  lemma SplitSecond(c1: int, c2: int)
    requires 0 <= c1 < 64 && 0 <= c2 < 64
    ensures ((c1 % 16) * 16 + c2 / 4) / 16 == c1 % 16 && ((c1 % 16) * 16 + c2 / 4) % 16 == c2 / 4
  {
  }

  lemma SplitThird(c2: int, c3: int)
    requires 0 <= c2 < 64 && 0 <= c3 < 64
    ensures ((c2 % 4) * 64 + c3) / 64 == c2 % 4 && ((c2 % 4) * 64 + c3) % 64 == c3
  {
  }

  lemma EncodeDecodeGroupOne(t: seq<byte>, last: bool)
    requires |t| == 4 && DecodeGroup(t, last).Some? && |DecodeGroup(t, last).value| == 1
    ensures var g := DecodeGroup(t, last).value;
      EncodeLastOne(g[0]) == t
  {
    var g := DecodeGroup(t, last).value;
    var c0, c1 := ValueOf(t[0]).value, ValueOf(t[1]).value;
    CharOfValueOf(t[0]);
    CharOfValueOf(t[1]);
    assert t[2] == Pad && t[3] == Pad && c1 % 16 == 0;
    assert g[0] == c0 * 4 + c1 / 16;
    SplitFirst(c0, c1);
    assert (g[0] % 4) * 16 == c1;
  }

  lemma EncodeDecodeGroupTwo(t: seq<byte>, last: bool)
    requires |t| == 4 && DecodeGroup(t, last).Some? && |DecodeGroup(t, last).value| == 2
    ensures var g := DecodeGroup(t, last).value;
      EncodeLastTwo(g[0], g[1]) == t
  {
    var g := DecodeGroup(t, last).value;
    var c0, c1, c2 := ValueOf(t[0]).value, ValueOf(t[1]).value, ValueOf(t[2]).value;
    CharOfValueOf(t[0]);
    CharOfValueOf(t[1]);
    CharOfValueOf(t[2]);
    assert t[3] == Pad && c2 % 4 == 0;
    assert g[0] == c0 * 4 + c1 / 16 && g[1] == (c1 % 16) * 16 + c2 / 4;
    SplitFirst(c0, c1);
    SplitSecond(c1, c2);
    assert (g[0] % 4) * 16 + g[1] / 16 == c1;
    assert (g[1] % 16) * 4 == c2;
  }

  lemma EncodeDecodeGroupThree(t: seq<byte>, last: bool)
    requires |t| == 4 && DecodeGroup(t, last).Some? && |DecodeGroup(t, last).value| == 3
    ensures var g := DecodeGroup(t, last).value;
      EncodeGroup(g[0], g[1], g[2]) == t
  {
    var g := DecodeGroup(t, last).value;
    var c0, c1, c2, c3 := ValueOf(t[0]).value, ValueOf(t[1]).value, ValueOf(t[2]).value, ValueOf(t[3]).value;
    CharOfValueOf(t[0]);
    CharOfValueOf(t[1]);
    CharOfValueOf(t[2]);
    CharOfValueOf(t[3]);
    assert g == [c0 * 4 + c1 / 16, (c1 % 16) * 16 + c2 / 4, (c2 % 4) * 64 + c3];
    SplitFirst(c0, c1);
    SplitSecond(c1, c2);
    SplitThird(c2, c3);
    assert (g[0] % 4) * 16 + g[1] / 16 == c1;
    assert (g[1] % 16) * 4 + g[2] / 64 == c2;
  }

  /** One step of `Decode`: the first group's octets and the decoded rest. */
  lemma DecodeCons(t: seq<byte>) returns (g: seq<byte>, rest: seq<byte>)
    requires Decode(t).Some? && |t| > 0
    ensures |t| >= 4 && DecodeGroup(t[..4], |t| == 4) == Some(g)
    ensures Decode(t[4..]) == Some(rest) && Decode(t).value == g + rest
  {
    g := DecodeGroup(t[..4], |t| == 4).value;
    rest := Decode(t[4..]).value;
  }

  lemma EncodeGroupCons(g: seq<byte>, rest: seq<byte>)
    requires |g| == 3
    ensures Encode(g + rest) == EncodeGroup(g[0], g[1], g[2]) + Encode(rest)
  {
    assert (g + rest)[3..] == rest;
  }

  /** Octets that decode are the encoding of what they decode to. */
  lemma {:induction false} EncodeDecode(t: seq<byte>)
    requires Decode(t).Some?
    ensures Encode(Decode(t).value) == t
    decreases |t|
  {
    if |t| > 0 {
      var g, rest := DecodeCons(t);
      EncodeDecodeGroup(t[..4], |t| == 4);
      EncodeDecode(t[4..]);
      if |g| == 3 {
        EncodeGroupCons(g, rest);
        assert t == t[..4] + t[4..];
      } else {
        assert |t| == 4 && rest == [];
        assert g + rest == g;
      }
    }
  }

  predicate AllBase64(t: seq<byte>) {
    forall i :: 0 <= i < |t| ==> IsBase64Char(t[i])
  }

  lemma AllBase64Append(a: seq<byte>, b: seq<byte>)
    requires AllBase64(a) && AllBase64(b)
    ensures AllBase64(a + b)
  {
    forall i | 0 <= i < |a + b| ensures IsBase64Char((a + b)[i]) {
      if i >= |a| {
        assert (a + b)[i] == b[i - |a|];
      }
    }
  }

  lemma AllBase64Ascii(t: seq<byte>)
    requires AllBase64(t)
    ensures IsAscii(t)
  {
    forall i | 0 <= i < |t| ensures t[i] < 0x80 {
      assert IsBase64Char(t[i]);
    }
  }

  /** Every encoded octet is an alphabet character or padding, hence ASCII. */
  lemma {:induction false} EncodeAlphabet(b: seq<byte>)
    ensures forall i :: 0 <= i < |Encode(b)| ==> IsBase64Char(Encode(b)[i])
    ensures IsAscii(Encode(b))
    decreases |b|
  {
    var t := Encode(b);
    if |b| >= 3 {
      EncodeAlphabet(b[3..]);
      var g := EncodeGroup(b[0], b[1], b[2]);
      assert AllBase64(g);
      assert t == g + Encode(b[3..]);
      AllBase64Append(g, Encode(b[3..]));
    } else if |b| > 0 {
      assert AllBase64(t);
    }
    AllBase64Ascii(t);
  }
}

=== FILE: bytes.dfy ===
/** Octet strings, the unit of everything the client encodes, signs and sends. */
module Bytes {

  /** An octet. */
  type byte = x: int | 0 <= x < 256

  /** True when every octet is a 7-bit ASCII code. */
  predicate IsAscii(b: seq<byte>) {
    forall i :: 0 <= i < |b| ==> b[i] < 0x80
  }
}

=== FILE: client.dfy ===
/**
 * The client itself: the public GET call, the private V2.1 POST call with
 * its credentials check, signed payload and signature headers, and the
 * classification of whatever the transport returns.
 *
 * The HTTP session is a function `transport` from request to response; the
 * UUID nonce and the HMAC-SHA512 function are parameters as well.
 */
module Coinone {
  import opened Options
  import opened Bytes
  import opened Json
  import opened Errors
  import opened Responses
  import Utf8
  import Payload

  const PublicBaseUrl: string := "https://api.coinone.co.kr/public/v2"
  const PrivateBaseUrl: string := "https://api.coinone.co.kr"
  const MissingCredentialsMessage: string := "调用私有 API 需要提供 access_token 和 secret_key"

  const AcceptHeader: string := "Accept"
  const ContentTypeHeader: string := "Content-type"
  const JsonContentType: string := "application/json"
  const PayloadHeader: string := "X-COINONE-PAYLOAD"
  const SignatureHeader: string := "X-COINONE-SIGNATURE"

  /** The credentials (either may be missing) and the per-request timeout in seconds. */
  datatype Client = Client(accessToken: Option<string>, secretKey: Option<string>, timeout: int)

  /** A request as handed to the HTTP session. */
  datatype Request =
    | GetRequest(url: string, query: Option<Dict>, headers: seq<Header>, timeout: int)
    | PostRequest(url: string, body: seq<byte>, headers: seq<Header>, timeout: int)

  type Transport = Request -> Response

  /** One call: the request that went out, if any, and how the call ended. */
  datatype Exchange = Exchange(sent: Option<Request>, outcome: Outcome)

  /** Python truthiness of an optional string: neither None nor empty. */
  predicate Truthy(s: Option<string>) {
    s.Some? && |s.value| > 0
  }

  predicate HasCredentials(c: Client) {
    Truthy(c.accessToken) && Truthy(c.secretKey)
  }

  /** The value of the first header called `name`. */
  function HeaderValue(headers: seq<Header>, name: string): (r: Option<string>)
    ensures r.Some? <==> exists i :: 0 <= i < |headers| && headers[i].name == name
  {
    if |headers| == 0 then None
    else if headers[0].name == name then Some(headers[0].value)
    else
      var r := HeaderValue(headers[1..], name);
      assert forall i :: 0 < i < |headers| ==> headers[1..][i - 1] == headers[i];
      r
  }

  /**
   * `_get`: one GET to the public base URL. It always goes out; once a
   * response arrives, a public call never reports a rate limit and never
   * lets another exception out.
   */
  function Get(c: Client, path: string, params: Option<Dict>, transport: Transport): (x: Exchange)
    ensures x.sent.Some? && x.sent.value.GetRequest?
    ensures x.sent.value.url == PublicBaseUrl + path && x.sent.value.query == params
    ensures x.sent.value.timeout == c.timeout
    ensures HeaderValue(x.sent.value.headers, AcceptHeader) == Some(JsonContentType)
    ensures x.outcome == ClassifyPublic(transport(x.sent.value))
    ensures !x.outcome.Uncaught?
    ensures x.outcome.Raised? ==> x.outcome.error.cls == ApiError
    ensures x.outcome.Returned? ==>
      var resp := transport(x.sent.value);
      !RaisesForStatus(resp.status) && resp.body == Some(x.outcome.body) && !IsErrorEnvelope(x.outcome.body)
  {
    var req := GetRequest(PublicBaseUrl + path, params, [Header(AcceptHeader, JsonContentType)], c.timeout);
    Exchange(Some(req), ClassifyPublic(transport(req)))
  }

  /** `encoded.decode("utf-8")` for the ASCII octets of a base64 text: it cannot fail. */
  function AsciiText(encoded: seq<byte>): (text: string)
    requires IsAscii(encoded)
    ensures Utf8.Encode(text) == encoded
  {
    Utf8.DecodeAscii(encoded);
    Utf8.EncodeDecode(encoded);
    Utf8.Decode(encoded).value
  }

  /** The headers of a private call: JSON content, the payload text, the signature. */
  function SigningHeaders(payloadText: string, signature: string): (headers: seq<Header>)
    ensures HeaderValue(headers, ContentTypeHeader) == Some(JsonContentType)
    ensures HeaderValue(headers, PayloadHeader) == Some(payloadText)
    ensures HeaderValue(headers, SignatureHeader) == Some(signature)
  {
    var headers := [Header(ContentTypeHeader, JsonContentType), Header(PayloadHeader, payloadText), Header(SignatureHeader, signature)];
    // The three names differ at one index each; saying so spares the verifier a full string comparison.
    assert ContentTypeHeader[0] != PayloadHeader[0] && ContentTypeHeader[0] != SignatureHeader[0];
    assert PayloadHeader[11] != SignatureHeader[11];
    assert HeaderValue(headers, SignatureHeader) == HeaderValue(headers[1..], SignatureHeader)
      == HeaderValue(headers[2..], SignatureHeader);
    headers
  }

  /**
   * The POST a private call sends: its body is the encoded payload, its
   * payload header is the same octets read as text, and its signature
   * header is the HMAC of those octets under the secret key.
   */
  function SignedRequest(c: Client, path: string, params: Dict, nonce: string, hmac: Payload.Hmac): (req: Request)
    requires HasCredentials(c)
    ensures req.PostRequest? && req.url == PrivateBaseUrl + path && req.timeout == c.timeout
    ensures Payload.DecodePayload(req.body) == Some(Payload.SignedBody(params, c.accessToken.value, nonce))
    ensures HeaderValue(req.headers, ContentTypeHeader) == Some(JsonContentType)
    ensures HeaderValue(req.headers, PayloadHeader).Some?
    ensures Utf8.Encode(HeaderValue(req.headers, PayloadHeader).value) == req.body
    ensures HeaderValue(req.headers, SignatureHeader) == Some(Payload.Sign(c.secretKey.value, req.body, hmac))
  {
    var encoded := Payload.EncodePayload(params, c.accessToken.value, nonce);
    Payload.PayloadRoundTrip(params, c.accessToken.value, nonce);
    var signature := Payload.Sign(c.secretKey.value, encoded, hmac);
    PostRequest(PrivateBaseUrl + path, encoded, SigningHeaders(AsciiText(encoded), signature), c.timeout)
  }

  /**
   * `_post_v21`. Without both credentials nothing is sent and a plain API
   * error with neither code nor status is raised. Otherwise the signed
   * request goes out and its response is classified by the private rules.
   */
  function PostV21(c: Client, path: string, params: Dict, nonce: string, hmac: Payload.Hmac, transport: Transport): (x: Exchange)
    ensures x.sent.None? <==> !HasCredentials(c)
    ensures !HasCredentials(c) ==>
      x.outcome == Raised(CoinoneError(ApiError, JStr(MissingCredentialsMessage), JNull, None))
    ensures x.sent.Some? ==> x.sent.value == SignedRequest(c, path, params, nonce, hmac)
    ensures x.sent.Some? ==>
      && x.sent.value.PostRequest?
      && x.sent.value.url == PrivateBaseUrl + path
      && Payload.DecodePayload(x.sent.value.body) == Some(Payload.SignedBody(params, c.accessToken.value, nonce))
      && x.outcome == ClassifyPrivate(transport(x.sent.value))
  {
    if !HasCredentials(c) then
      Exchange(None, Raised(CoinoneError(ApiError, JStr(MissingCredentialsMessage), JNull, None)))
    else
      var req := SignedRequest(c, path, params, nonce, hmac);
      Exchange(Some(req), ClassifyPrivate(transport(req)))
  }

  /** The nonce alone keeps two private requests apart, whatever else they carry. */
  lemma DistinctNoncesDistinctRequests(
    c1: Client, path1: string, params1: Dict, nonce1: string,
    c2: Client, path2: string, params2: Dict, nonce2: string,
    hmac: Payload.Hmac, transport: Transport)
    requires HasCredentials(c1) && HasCredentials(c2) && nonce1 != nonce2
    ensures PostV21(c1, path1, params1, nonce1, hmac, transport).sent.value.body !=
            PostV21(c2, path2, params2, nonce2, hmac, transport).sent.value.body
  {
    Payload.DistinctNoncesDistinctPayloads(params1, c1.accessToken.value, nonce1, params2, c2.accessToken.value, nonce2);
  }
}

=== FILE: decimal.dfy ===
/**
 * Decimal rendering of integers: Python's `str(int)` and `repr(int)`, which
 * is also how `json.dumps` writes an integer.
 */
module Decimal {

  predicate IsDigit(c: char) {
    '0' <= c <= '9'
  }

  predicate AllDigits(s: string) {
    forall i :: 0 <= i < |s| ==> IsDigit(s[i])
  }

  function DigitChar(d: int): (c: char)
    requires 0 <= d < 10
    ensures IsDigit(c)
  {
    ('0' as int + d) as char
  }

  function DigitOf(c: char): (d: int)
    requires IsDigit(c)
    ensures 0 <= d < 10 && DigitChar(d) == c
  {
    c as int - '0' as int
  }

  /** The shortest decimal spelling of `n`: no sign, no leading zero. */
  function NatToString(n: nat): (r: string)
    ensures |r| >= 1 && AllDigits(r)
    ensures r[0] == '0' <==> n == 0
    ensures |r| == 1 <==> n < 10
  {
    if n < 10 then [DigitChar(n)] else NatToString(n / 10) + [DigitChar(n % 10)]
  }

  /** `str(n)` for a Python int: a `-` sign in front of negative values. */
  function IntToString(n: int): (r: string)
    ensures |r| >= 1
    ensures r[0] == '-' <==> n < 0
  {
    if n < 0 then "-" + NatToString(-n) else NatToString(n)
  }

  /** The value of a string of decimal digits, most significant first. */
  function DigitsValue(s: string): (n: nat)
    requires AllDigits(s)
  {
    if |s| == 0 then 0 else DigitsValue(s[..|s| - 1]) * 10 + DigitOf(s[|s| - 1])
  }

  /** Reading back a spelling gives the number. */
  lemma {:induction false} DigitsValueNatToString(n: nat)
    ensures DigitsValue(NatToString(n)) == n
  {
    if n >= 10 {
      var s := NatToString(n);
      assert s[..|s| - 1] == NatToString(n / 10);
      DigitsValueNatToString(n / 10);
    }
  }

  /** `str(n) == "4"` holds of the integer four and of nothing else. */
  lemma IntToStringIsFour(n: int)
    ensures IntToString(n) == "4" <==> n == 4
  {
    if IntToString(n) == "4" {
      assert n >= 0;
      assert |NatToString(n)| == 1;
      assert DigitChar(n) == '4';
    }
  }
}

=== FILE: dicts.dfy ===
/**
 * Python dict semantics on an ordered association list: lookup, `get`, and
 * item assignment `d[k] = v`, which overwrites an existing key where it
 * stands and appends a new key at the end.
 */
module Dicts {
  import opened Options
  import opened Json

  /** The keys in insertion order. */
  function Keys(d: Dict): (ks: seq<string>)
    ensures |ks| == |d|
    ensures forall i :: 0 <= i < |d| ==> ks[i] == d[i].key
  {
    if |d| == 0 then [] else [d[0].key] + Keys(d[1..])
  }

  /** No key occurs twice, as in every Python dict. */
  predicate UniqueKeys(d: Dict) {
    forall i, j :: 0 <= i < j < |d| ==> d[i].key != d[j].key
  }

  /** `d[k]` when `k in d`. */
  function Lookup(d: Dict, k: string): (r: Option<Json>)
    ensures r.Some? <==> k in Keys(d)
  {
    if |d| == 0 then None
    else if d[0].key == k then Some(d[0].value)
    else Lookup(d[1..], k)
  }

  /** `d.get(k, default)`. */
  function GetOr(d: Dict, k: string, default: Json): (r: Json)
    ensures k in Keys(d) ==> Lookup(d, k) == Some(r)
    ensures k !in Keys(d) ==> r == default
  {
    Lookup(d, k).GetOr(default)
  }

  /** `d.get(k)`: Python's None, here JSON null, when `k` is absent. */
  function Get(d: Dict, k: string): (r: Json)
    ensures k in Keys(d) ==> Lookup(d, k) == Some(r)
    ensures k !in Keys(d) ==> r == JNull
  {
    GetOr(d, k, JNull)
  }

  /** `d[k] = v`. */
  function Insert(d: Dict, k: string, v: Json): (r: Dict)
    ensures Keys(r) == if k in Keys(d) then Keys(d) else Keys(d) + [k]
    ensures Lookup(r, k) == Some(v)
  {
    if |d| == 0 then [Field(k, v)]
    else if d[0].key == k then [Field(k, v)] + d[1..]
    else [d[0]] + Insert(d[1..], k, v)
  }

  /** Assignment to `k` leaves every other key's value as it was. */
  lemma {:induction false} InsertLookupOther(d: Dict, k: string, v: Json, k': string)
    requires k' != k
    ensures Lookup(Insert(d, k, v), k') == Lookup(d, k')
  {
    if |d| > 0 && d[0].key != k {
      InsertLookupOther(d[1..], k, v, k');
    }
  }

  /** Two assignments to distinct keys: the old keys, then whichever of the two were new, in order. */
  lemma InsertTwiceKeys(d: Dict, k1: string, v1: Json, k2: string, v2: Json)
    requires k1 != k2
    ensures Keys(Insert(Insert(d, k1, v1), k2, v2)) ==
      Keys(d) + (if k1 in Keys(d) then [] else [k1]) + (if k2 in Keys(d) then [] else [k2])
  {
    var ks := Keys(d);
    var k1s := Keys(Insert(d, k1, v1));
    assert k2 in k1s <==> k2 in ks;
  }

  // Plain sequence facts, stated once as lemmas over variables: the proofs that
  // call them stay small, because the verifier need not rediscover them on
  // large concrete terms.
  lemma InNotLast(ks: seq<string>, k1: string, k2: string)
    requires k1 != k2
    ensures k2 in ks + [k1] <==> k2 in ks
  {
  }

  lemma AppendTwo(d: Dict, f1: Field, f2: Field)
    ensures d + [f1] + [f2] == d + [f1, f2]
  {
  }

  lemma KeysAssoc(ks: seq<string>, a: seq<string>, b: seq<string>)
    ensures ks + a + b == ks + (a + b)
  {
  }

  lemma {:induction false} InsertAppendsNewKey(d: Dict, k: string, v: Json)
    requires k !in Keys(d)
    ensures Insert(d, k, v) == d + [Field(k, v)]
  {
    if |d| > 0 {
      KeysCons(d);
      InsertAppendsNewKey(d[1..], k, v);
      ConsAppend(d, Field(k, v));
    }
  }

  lemma UniqueKeysTail(d: Dict)
    requires UniqueKeys(d) && |d| > 0
    ensures UniqueKeys(d[1..])
  {
    forall i, j | 0 <= i < j < |d| - 1 ensures d[1..][i].key != d[1..][j].key {
      assert d[1..][i] == d[i + 1] && d[1..][j] == d[j + 1];
    }
  }

  lemma KeysCons(d: Dict)
    requires |d| > 0
    ensures Keys(d) == [d[0].key] + Keys(d[1..])
  {
  }

  lemma ConsAppend(d: Dict, f: Field)
    requires |d| > 0
    ensures [d[0]] + (d[1..] + [f]) == d + [f]
  {
  }

  /** Two assignments to distinct new keys append the two entries in order. */
  lemma InsertTwiceAppends(d: Dict, k1: string, v1: Json, k2: string, v2: Json)
    requires k1 != k2 && k1 !in Keys(d) && k2 !in Keys(d)
    ensures Insert(Insert(d, k1, v1), k2, v2) == d + [Field(k1, v1), Field(k2, v2)]
  {
    var d1 := Insert(d, k1, v1);
    assert Keys(d1) == Keys(d) + [k1];
    InNotLast(Keys(d), k1, k2);
    InsertAppendsNewKey(d, k1, v1);
    InsertAppendsNewKey(d1, k2, v2);
    AppendTwo(d, Field(k1, v1), Field(k2, v2));
  }

  /** The keys of the supplied arguments after a dict lie among the keys of the dict and all the arguments. */
  lemma SuppliedKeysWithin(m: Dict, args: Dict)
    ensures forall k :: k in Keys(m + Supplied(args)) ==> k in Keys(m + args)
  {
    KeysAppend(m, Supplied(args));
    KeysAppend(m, args);
    forall k | k in Keys(m + Supplied(args)) ensures k in Keys(m + args) {
      SuppliedWithin(args, k);
    }
  }

  /** On a dict, assigning an existing key rewrites that one entry and nothing else. */
  lemma {:induction false} InsertOverwritesInPlace(d: Dict, k: string, v: Json)
    requires UniqueKeys(d) && k in Keys(d)
    ensures |Insert(d, k, v)| == |d|
    ensures forall i :: 0 <= i < |d| ==>
      Insert(d, k, v)[i] == if d[i].key == k then Field(k, v) else d[i]
  {
    if d[0].key == k {
      OverwriteHead(d, k, v);
    } else {
      KeysCons(d);
      UniqueKeysTail(d);
      InsertOverwritesInPlace(d[1..], k, v);
      assert OverwrittenAt(Insert(d[1..], k, v), d[1..], k, v);
      OverwriteTail(d, k, v);
    }
  }

  // The two cases of InsertOverwritesInPlace, kept apart so that each
  // proof stays small.
  lemma OverwriteHead(d: Dict, k: string, v: Json)
    requires UniqueKeys(d) && |d| > 0 && d[0].key == k
    ensures |Insert(d, k, v)| == |d|
    ensures forall i :: 0 <= i < |d| ==>
      Insert(d, k, v)[i] == if d[i].key == k then Field(k, v) else d[i]
  {
    var r := Insert(d, k, v);
    assert r == [Field(k, v)] + d[1..];
    forall i | 0 < i < |d| ensures d[i].key != k {
      assert d[0].key != d[i].key;
    }
  }

  /** `r` is `d` with the value at key `k` replaced by `v`. */
  predicate OverwrittenAt(r: Dict, d: Dict, k: string, v: Json) {
    |r| == |d| &&
    forall i :: 0 <= i < |d| ==> r[i] == if d[i].key == k then Field(k, v) else d[i]
  }

  lemma OverwriteTail(d: Dict, k: string, v: Json)
    requires |d| > 0 && d[0].key != k
    requires OverwrittenAt(Insert(d[1..], k, v), d[1..], k, v)
    ensures OverwrittenAt(Insert(d, k, v), d, k, v)
  {
    var r := Insert(d, k, v);
    var r' := Insert(d[1..], k, v);
    var t := d[1..];
    assert r == [d[0]] + r';
    forall i | 0 <= i < |d|
      ensures r[i] == if d[i].key == k then Field(k, v) else d[i]
    {
      if i > 0 {
        assert r[i] == r'[i - 1] && d[i] == t[i - 1];
        assert r'[i - 1] == if t[i - 1].key == k then Field(k, v) else t[i - 1];
      }
    }
  }



  /** Assignment keeps keys unique. */
  lemma InsertKeepsUniqueKeys(d: Dict, k: string, v: Json)
    requires UniqueKeys(d)
    ensures UniqueKeys(Insert(d, k, v))
  {
    var r := Insert(d, k, v);
    if k in Keys(d) {
      InsertOverwritesInPlace(d, k, v);
      assert forall i :: 0 <= i < |r| ==> r[i].key == d[i].key;
    } else {
      InsertAppendsNewKey(d, k, v);
    }
  }

  /** Assignment never moves an existing entry, and only the entry for `k` can change. */
  lemma {:induction false} InsertKeepsPositions(d: Dict, k: string, v: Json)
    ensures |Insert(d, k, v)| >= |d|
    ensures forall i :: 0 <= i < |d| ==> Insert(d, k, v)[i].key == d[i].key
    ensures forall i :: 0 <= i < |d| && d[i].key != k ==> Insert(d, k, v)[i] == d[i]
  {
    if |d| > 0 && d[0].key != k {
      InsertKeepsPositions(d[1..], k, v);
      var r := Insert(d, k, v);
      assert r == [d[0]] + Insert(d[1..], k, v);
      forall i | 0 < i < |d|
        ensures r[i].key == d[i].key && (d[i].key != k ==> r[i] == d[i])
      {
        assert r[i] == Insert(d[1..], k, v)[i - 1];
      }
    }
  }

  /** `if v is not None: d[k] = v`, with Python's None as JSON null. */
  function SetIfGiven(d: Dict, k: string, v: Json): (r: Dict)
    ensures v == JNull ==> r == d
    ensures v != JNull ==> Lookup(r, k) == Some(v)
  {
    if v == JNull then d else Insert(d, k, v)
  }

  /** The entry `k: v` when `v` is given, and nothing otherwise. */
  function Given(k: string, v: Json): (r: Dict)
    ensures |r| <= 1
  {
    if v == JNull then [] else [Field(k, v)]
  }

  /** An optional argument as an option: None when it is Python's None. */
  function GivenValue(v: Json): (r: Option<Json>)
    ensures r.Some? <==> v != JNull
  {
    if v == JNull then None else Some(v)
  }

  /** Setting a key the dict does not hold yet appends its entry when given. */
  lemma SetIfGivenFresh(d: Dict, k: string, v: Json)
    requires k !in Keys(d)
    ensures SetIfGiven(d, k, v) == d + Given(k, v)
  {
    if v != JNull {
      InsertAppendsNewKey(d, k, v);
    }
  }

  lemma KeysAppend(a: Dict, b: Dict)
    ensures Keys(a + b) == Keys(a) + Keys(b)
  {
  }

  /** The entries of `args` whose value was supplied (is not None), in order. */
  function Supplied(args: Dict): (r: Dict)
    ensures |r| <= |args|
  {
    if |args| == 0 then []
    else Given(args[0].key, args[0].value) + Supplied(args[1..])
  }

  lemma SuppliedTwo(a: Field, b: Field)
    ensures Supplied([a, b]) == Given(a.key, a.value) + Given(b.key, b.value)
  {
    assert [a, b][1..] == [b];
    assert [b][1..] == [];
  }

  lemma UniqueKeysThree(a: Field, b: Field, c: Field)
    requires a.key != b.key && a.key != c.key && b.key != c.key
    ensures UniqueKeys([a] + [b, c])
  {
    assert [a] + [b, c] == [a, b, c];
  }

  /** `if v is not None: d[k] = v` for each entry `k: v` of `args`, in turn. */
  function SetEach(d: Dict, args: Dict): Dict
    decreases |args|
  {
    if |args| == 0 then d
    else SetEach(SetIfGiven(d, args[0].key, args[0].value), args[1..])
  }

  /** A supplied entry is one of the arguments. */
  lemma {:induction false} SuppliedWithin(args: Dict, x: string)
    ensures x in Keys(Supplied(args)) ==> x in Keys(args)
  {
    if |args| > 0 {
      var g := Given(args[0].key, args[0].value);
      KeysAppend(g, Supplied(args[1..]));
      SuppliedWithin(args[1..], x);
      assert Keys(args) == [args[0].key] + Keys(args[1..]);
    }
  }

  /** With distinct keys, the first key does not come back later. */
  lemma FirstKeyNotInRest(args: Dict)
    requires UniqueKeys(args) && |args| > 0
    ensures args[0].key !in Keys(args[1..])
  {
    forall j | 0 <= j < |args[1..]| ensures args[1..][j].key != args[0].key {
      assert args[1..][j] == args[j + 1];
    }
  }

  /** Lookup in a concatenation: the first part wins. */
  lemma {:induction false} LookupAppend(a: Dict, b: Dict, k: string)
    ensures Lookup(a + b, k) == if k in Keys(a) then Lookup(a, k) else Lookup(b, k)
  {
    if |a| == 0 {
      assert a + b == b;
    } else {
      assert (a + b)[0] == a[0];
      if a[0].key == k {
        assert Keys(a)[0] == k;
      } else {
        assert (a + b)[1..] == a[1..] + b;
        assert Keys(a) == [a[0].key] + Keys(a[1..]);
        LookupAppend(a[1..], b, k);
      }
    }
  }

  /** Dropping one entry keeps the remaining keys distinct. */
  lemma UniqueKeysDrop(a: Dict, x: Field, b: Dict)
    requires UniqueKeys(a + [x] + b)
    ensures UniqueKeys(a + b)
  {
    var full := a + [x] + b;
    forall i, j | 0 <= i < j < |a + b|
      ensures (a + b)[i].key != (a + b)[j].key
    {
      var i' := if i < |a| then i else i + 1;
      assert (a + b)[i] == full[i'];
      assert (a + b)[j] == full[if j < |a| then j else j + 1];
    }
  }

  /** Of distinct keys, one is supplied exactly when its value is not None. */
  lemma {:induction false} SuppliedHas(args: Dict, i: nat)
    requires UniqueKeys(args) && i < |args|
    ensures Lookup(Supplied(args), args[i].key) == if args[i].value == JNull then None else Some(args[i].value)
  {
    var g := Given(args[0].key, args[0].value);
    var rest := Supplied(args[1..]);
    assert Supplied(args) == g + rest;
    LookupAppend(g, rest, args[i].key);
    if i == 0 {
      FirstKeyNotInRest(args);
      SuppliedWithin(args[1..], args[0].key);
    } else {
      assert UniqueKeys(args[1..]);
      SuppliedHas(args[1..], i - 1);
      assert args[1..][i - 1] == args[i];
      assert args[0].key != args[i].key;
    }
  }

  lemma AppendAssoc(a: Dict, b: Dict, c: Dict)
    ensures (a + b) + c == a + (b + c)
  {
  }

  lemma FirstKeyFresh(d: Dict, args: Dict)
    requires UniqueKeys(d + args) && |args| > 0
    ensures args[0].key !in Keys(d)
  {
    forall i | 0 <= i < |d| ensures d[i].key != args[0].key {
      assert (d + args)[i] == d[i] && (d + args)[|d|] == args[0];
    }
  }

  lemma UniqueKeysAfterFirst(d: Dict, args: Dict)
    requires UniqueKeys(d + args) && |args| > 0
    ensures UniqueKeys(d + Given(args[0].key, args[0].value) + args[1..])
  {
    assert d + args == d + [args[0]] + args[1..];
    if args[0].value == JNull {
      UniqueKeysDrop(d, args[0], args[1..]);
      assert d + Given(args[0].key, args[0].value) == d;
    }
  }

  /** With distinct keys, each entry is what its key looks up. */
  lemma {:induction false} LookupUnique(m: Dict, i: nat)
    requires UniqueKeys(m) && i < |m|
    ensures Lookup(m, m[i].key) == Some(m[i].value)
  {
    if i > 0 {
      assert m[0].key != m[i].key;
      assert UniqueKeys(m[1..]);
      assert m[1..][i - 1] == m[i];
      LookupUnique(m[1..], i - 1);
    }
  }

  /** An entry of a first part with distinct keys is found there, whatever follows. */
  lemma LookupPrefix(m: Dict, s: Dict, i: nat)
    requires UniqueKeys(m) && i < |m|
    ensures Lookup(m + s, m[i].key) == Some(m[i].value)
  {
    LookupAppend(m, s, m[i].key);
    LookupUnique(m, i);
  }

  /** The entries of a dict with distinct keys are split into two parts with distinct keys. */
  lemma UniqueKeysSplit(m: Dict, args: Dict)
    requires UniqueKeys(m + args)
    ensures UniqueKeys(args)
    ensures forall i :: 0 <= i < |args| ==> args[i].key !in Keys(m)
  {
    var all := m + args;
    forall i, j | 0 <= i < j < |args| ensures args[i].key != args[j].key {
      assert all[|m| + i] == args[i] && all[|m| + j] == args[j];
    }
    forall i | 0 <= i < |args| ensures args[i].key !in Keys(m) {
      forall h | 0 <= h < |m| ensures m[h].key != args[i].key {
        assert all[h] == m[h] && all[|m| + i] == args[i];
      }
    }
  }

  /** After a dict, an argument's key finds its supplied value, or nothing, when all keys are distinct. */
  lemma SuppliedLookup(m: Dict, args: Dict, i: nat)
    requires UniqueKeys(m + args) && i < |args|
    ensures Lookup(m + Supplied(args), args[i].key) == GivenValue(args[i].value)
  {
    UniqueKeysSplit(m, args);
    LookupAppend(m, Supplied(args), args[i].key);
    SuppliedHas(args, i);
  }

  /**
   * With keys unique across the dict and the arguments, assigning the
   * supplied arguments in turn appends them in order.
   */
  lemma {:induction false} SetEachAppends(d: Dict, args: Dict)
    requires UniqueKeys(d + args)
    ensures SetEach(d, args) == d + Supplied(args)
    decreases |args|
  {
    if |args| > 0 {
      var a := args[0];
      FirstKeyFresh(d, args);
      SetIfGivenFresh(d, a.key, a.value);
      var d' := d + Given(a.key, a.value);
      UniqueKeysAfterFirst(d, args);
      SetEachAppends(d', args[1..]);
      assert SetEach(d, args) == SetEach(d', args[1..]);
      AppendAssoc(d, Given(a.key, a.value), Supplied(args[1..]));
    }
  }

  /** Assigning the supplied arguments in turn keeps keys unique. */
  lemma {:induction false} SetEachKeepsUniqueKeys(d: Dict, args: Dict)
    requires UniqueKeys(d)
    ensures UniqueKeys(SetEach(d, args))
    decreases |args|
  {
    if |args| > 0 {
      if args[0].value != JNull {
        InsertKeepsUniqueKeys(d, args[0].key, args[0].value);
      }
      SetEachKeepsUniqueKeys(SetIfGiven(d, args[0].key, args[0].value), args[1..]);
    }
  }
}

=== FILE: errors.dfy ===
/**
 * The client's two exception classes. A rate-limit error is a special API
 * error, so it carries the same three fields: the message (whatever value
 * the server's `error_msg` held, or a default text), the server's error
 * code (Python's None, here JSON null, when there is none) and the HTTP
 * status (absent when the error came from a well-formed error envelope).
 */
module Errors {
  import opened Options
  import opened Json

  /** Which class is raised: `CoinoneAPIError` or its subclass `CoinoneRateLimitError`. */
  datatype ErrorClass = ApiError | RateLimitError

  datatype CoinoneError = CoinoneError(cls: ErrorClass, message: Json, code: Json, httpStatus: Option<int>)

  /** `isinstance(e, CoinoneRateLimitError)`. */
  predicate IsRateLimit(e: CoinoneError) {
    e.cls == RateLimitError
  }
}

=== FILE: hex.dfy ===
/**
 * Lowercase hexadecimal rendering of octets, as Python's `hexdigest()`
 * produces for the HMAC-SHA512 signature.
 */
module Hex {
  import opened Options
  import opened Bytes

  /** The sixteen digits, in value order. */
  const Digits: string := "0123456789abcdef"

  /** The value of a lowercase hexadecimal digit; None for any other character. */
  function DigitValue(c: char): (r: Option<int>)
    ensures r.Some? ==> 0 <= r.value < 16
  {
    if '0' <= c <= '9' then Some(c as int - '0' as int)
    else if 'a' <= c <= 'f' then Some(c as int - 'a' as int + 10)
    else None
  }

  lemma DigitValueOfDigit(d: int)
    requires 0 <= d < 16
    ensures DigitValue(Digits[d]) == Some(d)
  {
  }

  lemma DigitOfDigitValue(c: char)
    requires DigitValue(c).Some?
    ensures Digits[DigitValue(c).value] == c
  {
  }

  /** Two digits per octet, high nibble first. */
  function Encode(b: seq<byte>): (r: string)
    ensures |r| == 2 * |b|
  {
    if |b| == 0 then "" else [Digits[b[0] / 16], Digits[b[0] % 16]] + Encode(b[1..])
  }

  /** The octets a lowercase hexadecimal string of even length spells; None otherwise. */
  function Decode(s: string): (r: Option<seq<byte>>)
    ensures r.Some? ==> 2 * |r.value| == |s|
  {
    if |s| == 0 then Some([])
    else if |s| == 1 then None
    else
      var hi, lo := DigitValue(s[0]), DigitValue(s[1]);
      if hi.None? || lo.None? then None
      else
        match Decode(s[2..])
        case None => None
        case Some(rest) => Some([hi.value * 16 + lo.value] + rest)
  }

  /** Every character of an encoding is a lowercase hexadecimal digit. */
  lemma {:induction false} EncodeIsLowerHex(b: seq<byte>)
    ensures forall i :: 0 <= i < |Encode(b)| ==> Encode(b)[i] in Digits
  {
    if |b| > 0 {
      EncodeIsLowerHex(b[1..]);
      var r := Encode(b);
      assert r == [Digits[b[0] / 16], Digits[b[0] % 16]] + Encode(b[1..]);
      forall i | 0 <= i < |r|
        ensures r[i] in Digits
      {
        if i >= 2 {
          assert r[i] == Encode(b[1..])[i - 2];
        }
      }
    }
  }

  /** Decoding an encoding gives back the octets. */
  lemma {:induction false} DecodeEncode(b: seq<byte>)
    ensures Decode(Encode(b)) == Some(b)
  {
    if |b| > 0 {
      var x := b[0];
      var hi, lo := x / 16, x % 16;
      assert Encode(b) == [Digits[hi], Digits[lo]] + Encode(b[1..]);
      DecodeEncode(b[1..]);
      DigitValueOfDigit(hi);
      DigitValueOfDigit(lo);
      DecodePair(Digits[hi], Digits[lo], Encode(b[1..]), b[1..]);
      assert hi * 16 + lo == x;
      assert [x] + b[1..] == b;
    }
  }

  /** Decoding reads two digits, then the rest. */
  lemma DecodePair(c0: char, c1: char, t: string, rest: seq<byte>)
    requires DigitValue(c0).Some? && DigitValue(c1).Some? && Decode(t) == Some(rest)
    ensures Decode([c0, c1] + t) == Some([DigitValue(c0).value * 16 + DigitValue(c1).value] + rest)
  {
    var s := [c0, c1] + t;
    assert s[0] == c0 && s[1] == c1 && s[2..] == t;
  }

  lemma EncodeOctet(hi: int, lo: int, rest: seq<byte>)
    requires 0 <= hi < 16 && 0 <= lo < 16
    ensures Encode([hi * 16 + lo] + rest) == [Digits[hi], Digits[lo]] + Encode(rest)
  {
    var b := [hi * 16 + lo] + rest;
    assert b[0] / 16 == hi && b[0] % 16 == lo;
    assert b[1..] == rest;
  }

  /** A string that decodes is the encoding of what it decodes to. */
  lemma {:induction false} EncodeDecode(s: string)
    requires Decode(s).Some?
    ensures Encode(Decode(s).value) == s
  {
    if |s| > 0 {
      var hi, lo := DigitValue(s[0]).value, DigitValue(s[1]).value;
      var rest := Decode(s[2..]).value;
      assert Decode(s).value == [hi * 16 + lo] + rest;
      DigitOfDigitValue(s[0]);
      DigitOfDigitValue(s[1]);
      EncodeDecode(s[2..]);
      EncodeOctet(hi, lo, rest);
      assert s == [s[0], s[1]] + s[2..];
    }
  }
}

=== FILE: json.dfy ===
/**
 * JSON values as the client sees them: the payload it serialises and the
 * bodies `resp.json()` hands back. Objects are ordered lists of fields,
 * because Python dicts keep insertion order and the signature covers the
 * serialised order. Floating-point numbers are not part of the model.
 */
module Json {

  datatype Json =
    | JNull
    | JBool(b: bool)
    | JInt(i: int)
    | JStr(s: string)
    | JArr(items: seq<Json>)
    | JObj(fields: seq<Field>)

  datatype Field = Field(key: string, value: Json)

  /** A Python dict of JSON values, in insertion order. */
  type Dict = seq<Field>
}

=== FILE: json_parse.dfy ===
/**
 * A reader for compact JSON text, the left inverse of `JsonPrint.Dumps`.
 * It accepts no whitespace between tokens, rejects raw characters below
 * U+0020 in strings and leading zeros in numbers, and keeps object members in
 * textual order. Its purpose is to state what the signed payload text
 * means: reading it back recovers the exact value that was serialised.
 */
module JsonParse {
  import opened Options
  import opened Json
  import opened JsonPrint
  import Decimal
  import Hex

  /** The value of a hexadecimal digit in either case. */
  function HexValue(c: char): (r: Option<int>)
    ensures r.Some? ==> 0 <= r.value < 16
  {
    if '0' <= c <= '9' then Some(c as int - '0' as int)
    else if 'a' <= c <= 'f' then Some(c as int - 'a' as int + 10)
    else if 'A' <= c <= 'F' then Some(c as int - 'A' as int + 10)
    else None
  }

  lemma HexValueOfDigit(d: int)
    requires 0 <= d < 16
    ensures HexValue(Hex.Digits[d]) == Some(d)
  {
  }

  /**
   * The character an escape sequence (the text after a backslash) stands
   * for, and the text after it. Escaped UTF-16 surrogates are refused.
   */
  function ParseEscape(s: string): (r: Option<(char, string)>)
    ensures r.Some? ==> |r.value.1| < |s|
  {
    if |s| == 0 then None
    else if s[0] == '"' then Some(('"', s[1..]))
    else if s[0] == '\\' then Some(('\\', s[1..]))
    else if s[0] == '/' then Some(('/', s[1..]))
    else if s[0] == 'b' then Some((0x08 as char, s[1..]))
    else if s[0] == 't' then Some((0x09 as char, s[1..]))
    else if s[0] == 'n' then Some((0x0A as char, s[1..]))
    else if s[0] == 'f' then Some((0x0C as char, s[1..]))
    else if s[0] == 'r' then Some((0x0D as char, s[1..]))
    else if s[0] == 'u' && |s| >= 5 then
      var h0, h1, h2, h3 := HexValue(s[1]), HexValue(s[2]), HexValue(s[3]), HexValue(s[4]);
      if h0.None? || h1.None? || h2.None? || h3.None? then None
      else
        var n := h0.value * 4096 + h1.value * 256 + h2.value * 16 + h3.value;
        if 0xD800 <= n < 0xE000 then None else Some((n as char, s[5..]))
    else None
  }

  /** Puts `c` in front of the text of a successful parse. */
  function Prepend(c: char, r: Option<(string, string)>): Option<(string, string)> {
    match r
    case None => None
    case Some((t, rest)) => Some(([c] + t, rest))
  }

  /** The contents of a string literal whose opening quote is already consumed. */
  function ParseStringBody(s: string): (r: Option<(string, string)>)
    ensures r.Some? ==> |r.value.1| < |s|
    decreases |s|
  {
    if |s| == 0 then None
    else if s[0] == '"' then Some(([], s[1..]))
    else if s[0] == '\\' then
      match ParseEscape(s[1..])
      case None => None
      case Some((c, rest)) => Prepend(c, ParseStringBody(rest))
    else if (s[0] as int) < 0x20 then None
    else Prepend(s[0], ParseStringBody(s[1..]))
  }

  /** The length of the run of decimal digits at the head of `s`. */
  function DigitRun(s: string): (k: nat)
    ensures k <= |s|
    ensures Decimal.AllDigits(s[..k])
    ensures k < |s| ==> !Decimal.IsDigit(s[k])
  {
    if |s| == 0 || !Decimal.IsDigit(s[0]) then 0 else 1 + DigitRun(s[1..])
  }

  /** An unsigned integer: a digit run with no leading zero. */
  function ParseNat(s: string): (r: Option<(nat, string)>)
    ensures r.Some? ==> |r.value.1| < |s|
  {
    var k := DigitRun(s);
    if k == 0 || (s[0] == '0' && k > 1) then None
    else Some((Decimal.DigitsValue(s[..k]), s[k..]))
  }

  /** A keyword such as `null`. */
  function ParseLiteral(s: string, word: string, v: Json): (r: Option<(Json, string)>)
    requires |word| > 0
    ensures r.Some? ==> |r.value.1| < |s|
  {
    if |s| >= |word| && s[..|word|] == word then Some((v, s[|word|..])) else None
  }

  /** One JSON value at the head of `s`, and the text after it. */
  function ParseValue(s: string): (r: Option<(Json, string)>)
    ensures r.Some? ==> |r.value.1| < |s|
    decreases |s|, 0
  {
    if |s| == 0 then None
    else if s[0] == 'n' then ParseLiteral(s, "null", JNull)
    else if s[0] == 't' then ParseLiteral(s, "true", JBool(true))
    else if s[0] == 'f' then ParseLiteral(s, "false", JBool(false))
    else if s[0] == '"' then
      match ParseStringBody(s[1..])
      case None => None
      case Some((t, rest)) => Some((JStr(t), rest))
    else if s[0] == '-' then
      match ParseNat(s[1..])
      case None => None
      case Some((n, rest)) => Some((JInt(-(n as int)), rest))
    else if Decimal.IsDigit(s[0]) then
      match ParseNat(s)
      case None => None
      case Some((n, rest)) => Some((JInt(n), rest))
    else if s[0] == '[' then
      if |s| >= 2 && s[1] == ']' then Some((JArr([]), s[2..]))
      else
        match ParseItems(s[1..])
        case None => None
        case Some((items, rest)) => Some((JArr(items), rest))
    else if s[0] == '{' then
      if |s| >= 2 && s[1] == '}' then Some((JObj([]), s[2..]))
      else
        match ParseFields(s[1..])
        case None => None
        case Some((fields, rest)) => Some((JObj(fields), rest))
    else None
  }

  /** One or more comma-separated values and the closing `]`. */
  function ParseItems(s: string): (r: Option<(seq<Json>, string)>)
    ensures r.Some? ==> |r.value.1| < |s|
    decreases |s|, 1
  {
    match ParseValue(s)
    case None => None
    case Some((v, rest)) =>
      if |rest| == 0 then None
      else if rest[0] == ']' then Some(([v], rest[1..]))
      else if rest[0] == ',' then
        match ParseItems(rest[1..])
        case None => None
        case Some((vs, rest')) => Some(([v] + vs, rest'))
      else None
  }

  /** One or more comma-separated `"key":value` members and the closing `}`. */
  function ParseFields(s: string): (r: Option<(seq<Field>, string)>)
    ensures r.Some? ==> |r.value.1| < |s|
    decreases |s|, 1
  {
    if |s| == 0 || s[0] != '"' then None
    else
      match ParseStringBody(s[1..])
      case None => None
      case Some((k, r1)) =>
        if |r1| == 0 || r1[0] != ':' then None
        else
          match ParseValue(r1[1..])
          case None => None
          case Some((v, r2)) =>
            if |r2| == 0 then None
            else if r2[0] == '}' then Some(([Field(k, v)], r2[1..]))
            else if r2[0] == ',' then
              match ParseFields(r2[1..])
              case None => None
              case Some((fs, r3)) => Some(([Field(k, v)] + fs, r3))
            else None
  }

  /** A complete JSON text: one value and nothing after it. */
  function ParseJson(s: string): Option<Json> {
    match ParseValue(s)
    case None => None
    case Some((v, rest)) => if |rest| == 0 then Some(v) else None
  }

  // ---------------------------------------------------------------------
  // Reading back what was printed

  /** What may follow a value inside a document: its end, a comma or a closing bracket. */
  predicate Delimited(rest: string) {
    |rest| == 0 || rest[0] == ',' || rest[0] == ']' || rest[0] == '}'
  }

  lemma EscapeCharStep(c: char, tail: string)
    ensures ParseStringBody(EscapeChar(c) + tail) == Prepend(c, ParseStringBody(tail))
  {
    var n := c as int;
    if n >= 0x20 && c != '"' && c != '\\' {
      var s := [c] + tail;
      assert s[0] == c && s[1..] == tail;
    } else if n < 0x20 && n != 0x08 && n != 0x09 && n != 0x0A && n != 0x0C && n != 0x0D {
      UnicodeEscapeStep(c, tail);
    } else {
      ShortEscapeStep(c, tail);
    }
  }

  /** A backslash followed by an escape that reads as `c`. */
  lemma BackslashStep(s: string, c: char, tail: string)
    requires |s| > 0 && s[0] == '\\' && ParseEscape(s[1..]) == Some((c, tail))
    ensures ParseStringBody(s) == Prepend(c, ParseStringBody(tail))
  {
  }

  lemma ShortEscapeStep(c: char, tail: string)
    requires c == '"' || c == '\\' || c as int in {0x08, 0x09, 0x0A, 0x0C, 0x0D}
    ensures ParseStringBody(EscapeChar(c) + tail) == Prepend(c, ParseStringBody(tail))
  {
    var s := EscapeChar(c) + tail;
    assert |EscapeChar(c)| == 2 && EscapeChar(c)[0] == '\\';
    assert s[1..][1..] == tail;
    BackslashStep(s, c, tail);
  }

  lemma UnicodeEscapeStep(c: char, tail: string)
    requires c as int < 0x20 && c as int !in {0x08, 0x09, 0x0A, 0x0C, 0x0D}
    ensures ParseStringBody(EscapeChar(c) + tail) == Prepend(c, ParseStringBody(tail))
  {
    var n := c as int;
    var s := EscapeChar(c) + tail;
    assert EscapeChar(c) == "\\u00" + [Hex.Digits[n / 16], Hex.Digits[n % 16]];
    var u := s[1..];
    assert u[0] == 'u' && u[1] == '0' && u[2] == '0';
    assert u[3] == Hex.Digits[n / 16] && u[4] == Hex.Digits[n % 16];
    HexValueOfDigit(n / 16);
    HexValueOfDigit(n % 16);
    assert u[5..] == tail;
    assert ParseEscape(u) == Some((c, tail));
    BackslashStep(s, c, tail);
  }

  /** The body of a quoted string reads back as the string. */
  lemma {:induction false} ParseEscaped(s: string, rest: string)
    ensures ParseStringBody(Escape(s) + "\"" + rest) == Some((s, rest))
  {
    if |s| == 0 {
      assert Escape(s) + "\"" + rest == "\"" + rest;
    } else {
      var tail := Escape(s[1..]) + "\"" + rest;
      ParseEscaped(s[1..], rest);
      EscapeCons(s);
      Assoc4(EscapeChar(s[0]), Escape(s[1..]), "\"", rest);
      EscapeCharStep(s[0], tail);
      assert [s[0]] + s[1..] == s;
    }
  }

  // Plain sequence facts, stated once as lemmas over variables: the proofs that
  // call them stay small, because the verifier need not rediscover them on
  // large concrete terms.
  lemma EscapeCons(s: string)
    requires |s| > 0
    ensures Escape(s) == EscapeChar(s[0]) + Escape(s[1..])
  {
  }

  lemma Assoc(a: string, b: string, c: string)
    ensures a + b + c == a + (b + c)
  {
  }

  lemma Assoc4(a: string, b: string, c: string, d: string)
    ensures a + b + c + d == a + (b + c + d)
  {
  }

  /** A string that starts with `c`: its head and its tail. */
  lemma HeadTail(c: char, t: string)
    ensures ([c] + t)[0] == c && ([c] + t)[1..] == t
  {
  }

  lemma {:induction false} DigitRunAppend(a: string, rest: string)
    requires Decimal.AllDigits(a)
    requires |rest| == 0 || !Decimal.IsDigit(rest[0])
    ensures DigitRun(a + rest) == |a|
    decreases |a|
  {
    var s := a + rest;
    if |a| == 0 {
      assert s == rest;
    } else {
      assert s[0] == a[0] && Decimal.IsDigit(s[0]);
      assert s[1..] == a[1..] + rest;
      assert Decimal.AllDigits(a[1..]) by {
        forall i | 0 <= i < |a[1..]| ensures Decimal.IsDigit(a[1..][i]) {
          assert a[1..][i] == a[i + 1];
        }
      }
      DigitRunAppend(a[1..], rest);
      assert DigitRun(s) == 1 + DigitRun(s[1..]);
    }
  }

  /** The spelling of a natural number reads back as that number. */
  lemma ParseNatToString(n: nat, rest: string)
    requires Delimited(rest)
    ensures ParseNat(Decimal.NatToString(n) + rest) == Some((n, rest))
  {
    var a := Decimal.NatToString(n);
    DigitRunAppend(a, rest);
    assert (a + rest)[..|a|] == a && (a + rest)[|a|..] == rest;
    Decimal.DigitsValueNatToString(n);
  }

  /** The first character of any printed value: never a closing bracket. */
  lemma DumpsFirstChar(j: Json)
    ensures Dumps(j)[0] != ']' && Dumps(j)[0] != '}'
  {
    if j.JInt? && j.i >= 0 {
      assert Decimal.IsDigit(Decimal.NatToString(j.i)[0]);
    }
  }

  lemma ParseDumpsKeyword(j: Json, rest: string)
    requires j.JNull? || j.JBool?
    ensures ParseValue(Dumps(j) + rest) == Some((j, rest))
  {
    var s := Dumps(j) + rest;
    if j.JNull? {
      assert s[..4] == "null" && s[4..] == rest;
    } else if j.b {
      assert s[..4] == "true" && s[4..] == rest;
    } else {
      assert s[..5] == "false" && s[5..] == rest;
    }
  }

  lemma ParseDumpsInt(n: int, rest: string)
    requires Delimited(rest)
    ensures ParseValue(Dumps(JInt(n)) + rest) == Some((JInt(n), rest))
  {
    var s := Dumps(JInt(n)) + rest;
    if n < 0 {
      var a := Decimal.NatToString(-n);
      assert s == "-" + a + rest;
      Assoc("-", a, rest);
      HeadTail('-', a + rest);
      ParseNatToString(-n, rest);
      ParseNegativeText(s, -n, rest);
    } else {
      var a := Decimal.NatToString(n);
      assert s == a + rest;
      ParseNatToString(n, rest);
      ParseDigitsText(s, n, rest);
    }
  }

  lemma ParseNegativeText(s: string, n: nat, rest: string)
    requires |s| > 0 && s[0] == '-' && ParseNat(s[1..]) == Some((n, rest))
    ensures ParseValue(s) == Some((JInt(-(n as int)), rest))
  {
  }

  lemma ParseDigitsText(s: string, n: nat, rest: string)
    requires |s| > 0 && Decimal.IsDigit(s[0]) && ParseNat(s) == Some((n, rest))
    ensures ParseValue(s) == Some((JInt(n), rest))
  {
    var c := s[0];
    assert c != 'n' && c != 't' && c != 'f' && c != '"' && c != '-';
  }

  lemma ParseDumpsString(t: string, rest: string)
    ensures ParseValue(Dumps(JStr(t)) + rest) == Some((JStr(t), rest))
  {
    var s := Dumps(JStr(t)) + rest;
    assert s == "\"" + (Escape(t) + "\"" + rest);
    HeadTail('"', Escape(t) + "\"" + rest);
    ParseEscaped(t, rest);
    ParseStringText(s, t, rest);
  }

  lemma ParseStringText(s: string, t: string, rest: string)
    requires |s| > 0 && s[0] == '"' && ParseStringBody(s[1..]) == Some((t, rest))
    ensures ParseValue(s) == Some((JStr(t), rest))
  {
  }

  lemma ParseEmptyContainer(j: Json, rest: string)
    requires j == JArr([]) || j == JObj([])
    ensures ParseValue(Dumps(j) + rest) == Some((j, rest))
  {
    var s := Dumps(j) + rest;
    if j.JArr? {
      assert Dumps(j) == "[]";
    } else {
      assert Dumps(j) == "{}";
    }
    assert s[2..] == rest;
  }

  lemma ItemsFirstChar(items: seq<Json>)
    requires |items| > 0
    ensures |DumpsItems(items)| > 0 && DumpsItems(items)[0] != ']'
  {
    var d := Dumps(items[0]);
    DumpsFirstChar(items[0]);
    if |items| > 1 {
      assert DumpsItems(items) == d + ("," + DumpsItems(items[1..]));
    }
  }

  lemma ParseArrayText(t: string, items: seq<Json>, rest: string)
    requires |t| > 0 && t[0] != ']'
    requires ParseItems(t) == Some((items, rest))
    ensures ParseValue("[" + t) == Some((JArr(items), rest))
  {
    var s := "[" + t;
    assert s[0] == '[' && s[1..] == t && s[1] != ']';
    assert s[0] != 'n' && s[0] != 't' && s[0] != 'f' && s[0] != '"' && s[0] != '-' && !Decimal.IsDigit(s[0]);
  }

  lemma ParseDumpsArray(items: seq<Json>, rest: string)
    requires |items| > 0
    requires ParseItems(DumpsItems(items) + "]" + rest) == Some((items, rest))
    ensures ParseValue(Dumps(JArr(items)) + rest) == Some((JArr(items), rest))
  {
    var t := DumpsItems(items) + "]" + rest;
    assert Dumps(JArr(items)) + rest == "[" + t;
    ItemsFirstChar(items);
    ParseArrayText(t, items, rest);
  }

  lemma FieldsFirstChar(fields: seq<Field>)
    requires |fields| > 0
    ensures |DumpsFields(fields)| > 0 && DumpsFields(fields)[0] == '"'
  {
    var d := DumpsField(fields[0]);
    assert d == "\"" + (Escape(fields[0].key) + "\":" + Dumps(fields[0].value));
    if |fields| > 1 {
      assert DumpsFields(fields) == d + ("," + DumpsFields(fields[1..]));
    }
  }

  lemma ParseObjectText(t: string, fields: seq<Field>, rest: string)
    requires |t| > 0 && t[0] == '"'
    requires ParseFields(t) == Some((fields, rest))
    ensures ParseValue("{" + t) == Some((JObj(fields), rest))
  {
    var s := "{" + t;
    assert s[0] == '{' && s[1..] == t && s[1] != '}';
    assert s[0] != 'n' && s[0] != 't' && s[0] != 'f' && s[0] != '"' && s[0] != '-' && !Decimal.IsDigit(s[0]);
  }

  lemma ParseDumpsObject(fields: seq<Field>, rest: string)
    requires |fields| > 0
    requires ParseFields(DumpsFields(fields) + "}" + rest) == Some((fields, rest))
    ensures ParseValue(Dumps(JObj(fields)) + rest) == Some((JObj(fields), rest))
  {
    var t := DumpsFields(fields) + "}" + rest;
    assert Dumps(JObj(fields)) + rest == "{" + t;
    FieldsFirstChar(fields);
    ParseObjectText(t, fields, rest);
  }

  /** Printing and then reading a value gives back the value and the text after it. */
  lemma {:induction false} ParseDumps(j: Json, rest: string)
    requires Delimited(rest)
    ensures ParseValue(Dumps(j) + rest) == Some((j, rest))
    decreases j
  {
    match j
    case JNull => ParseDumpsKeyword(j, rest);
    case JBool(_) => ParseDumpsKeyword(j, rest);
    case JInt(n) => ParseDumpsInt(n, rest);
    case JStr(t) => ParseDumpsString(t, rest);
    case JArr(items) =>
      if |items| == 0 {
        ParseEmptyContainer(j, rest);
      } else {
        ParseItemsDumps(items, rest);
        ParseDumpsArray(items, rest);
      }
    case JObj(fields) =>
      if |fields| == 0 {
        ParseEmptyContainer(j, rest);
      } else {
        ParseFieldsDumps(fields, rest);
        ParseDumpsObject(fields, rest);
      }
  }

  lemma {:induction false} ParseItemsDumps(items: seq<Json>, rest: string)
    requires |items| >= 1 && Delimited(rest)
    ensures ParseItems(DumpsItems(items) + "]" + rest) == Some((items, rest))
    decreases items
  {
    var x := Dumps(items[0]);
    if |items| == 1 {
      var after := "]" + rest;
      assert DumpsItems(items) == x;
      Assoc(x, "]", rest);
      ParseDumps(items[0], after);
      HeadTail(']', rest);
      ParseItemsText(x + after, items[0], after);
      assert [items[0]] == items;
    } else {
      var d := DumpsItems(items[1..]);
      var tail := d + "]" + rest;
      assert DumpsItems(items) == x + "," + d;
      ItemsJoin(x, d, rest);
      ParseDumps(items[0], "," + tail);
      HeadTail(',', tail);
      ParseItemsDumps(items[1..], rest);
      ParseItemsText(x + ("," + tail), items[0], "," + tail);
      assert [items[0]] + items[1..] == items;
    }
  }

  lemma ItemsJoin(x: string, d: string, rest: string)
    ensures x + "," + d + "]" + rest == x + ("," + (d + "]" + rest))
  {
  }

  lemma FieldsJoin(x: string, d: string, rest: string)
    ensures x + "," + d + "}" + rest == x + "," + (d + "}" + rest)
  {
  }

  /** One parsed element, then a `]` or a `,` and whatever follows. */
  lemma ParseItemsText(s: string, v: Json, r: string)
    requires ParseValue(s) == Some((v, r)) && |r| > 0 && (r[0] == ']' || r[0] == ',')
    ensures ParseItems(s) ==
      if r[0] == ']' then Some(([v], r[1..]))
      else
        match ParseItems(r[1..])
        case None => None
        case Some((vs, r')) => Some(([v] + vs, r'))
  {
  }

  lemma ParseFieldsText(s: string, k: string, r1: string, v: Json, r2: string)
    requires |s| > 0 && s[0] == '"' && ParseStringBody(s[1..]) == Some((k, r1))
    requires |r1| > 0 && r1[0] == ':' && ParseValue(r1[1..]) == Some((v, r2))
    requires |r2| > 0 && (r2[0] == '}' || r2[0] == ',')
    ensures ParseFields(s) ==
      if r2[0] == '}' then Some(([Field(k, v)], r2[1..]))
      else
        match ParseFields(r2[1..])
        case None => None
        case Some((fs, r3)) => Some(([Field(k, v)] + fs, r3))
  {
  }

  /** A printed member is a quote, the escaped key, a quote, a colon and the printed value. */
  lemma FieldTextParts(f: Field, after: string)
    ensures var s := DumpsField(f) + after;
      |s| > 0 && s[0] == '"' && s[1..] == Escape(f.key) + "\"" + (":" + Dumps(f.value) + after)
  {
    var s := DumpsField(f) + after;
    assert s == "\"" + (Escape(f.key) + "\"" + (":" + Dumps(f.value) + after));
  }

  /** One printed member, then a `}` or a `,` and whatever follows. */
  lemma {:induction false} ParseFieldHead(f: Field, after: string)
    requires |after| > 0 && (after[0] == '}' || after[0] == ',')
    ensures ParseFields(DumpsField(f) + after) ==
      if after[0] == '}' then Some(([f], after[1..]))
      else
        match ParseFields(after[1..])
        case None => None
        case Some((fs, r3)) => Some(([f] + fs, r3))
    decreases f, 0
  {
    var r1 := ":" + Dumps(f.value) + after;
    var s := DumpsField(f) + after;
    FieldTextParts(f, after);
    ParseEscaped(f.key, r1);
    Assoc(":", Dumps(f.value), after);
    HeadTail(':', Dumps(f.value) + after);
    ParseDumps(f.value, after);
    ParseFieldsText(s, f.key, r1, f.value, after);
  }

  lemma {:induction false} ParseLastField(f: Field, rest: string)
    ensures ParseFields(DumpsField(f) + "}" + rest) == Some(([f], rest))
    decreases f, 1
  {
    var after := "}" + rest;
    assert DumpsField(f) + "}" + rest == DumpsField(f) + after;
    ParseFieldHead(f, after);
    assert after[1..] == rest;
  }

  lemma {:induction false} ParseNextField(f: Field, tail: string, fs: seq<Field>, rest: string)
    requires ParseFields(tail) == Some((fs, rest))
    ensures ParseFields(DumpsField(f) + "," + tail) == Some(([f] + fs, rest))
    decreases f, 1
  {
    var after := "," + tail;
    assert DumpsField(f) + "," + tail == DumpsField(f) + after;
    ParseFieldHead(f, after);
    assert after[1..] == tail;
  }

  lemma {:induction false} ParseFieldsDumps(fields: seq<Field>, rest: string)
    requires |fields| >= 1 && Delimited(rest)
    ensures ParseFields(DumpsFields(fields) + "}" + rest) == Some((fields, rest))
    decreases fields
  {
    var f := fields[0];
    if |fields| == 1 {
      assert DumpsFields(fields) == DumpsField(f);
      ParseLastField(f, rest);
      assert [f] == fields;
    } else {
      var d := DumpsFields(fields[1..]);
      var tail := d + "}" + rest;
      assert DumpsFields(fields) == DumpsField(f) + "," + d;
      FieldsJoin(DumpsField(f), d, rest);
      ParseFieldsDumps(fields[1..], rest);
      ParseNextField(f, tail, fields[1..], rest);
      assert [f] + fields[1..] == fields;
    }
  }

  /** Reading the compact text of a value gives back exactly that value. */
  lemma ParseJsonDumps(j: Json)
    ensures ParseJson(Dumps(j)) == Some(j)
  {
    ParseDumps(j, "");
    assert Dumps(j) + "" == Dumps(j);
  }

  /** Distinct values have distinct compact texts. */
  lemma DumpsInjective(j1: Json, j2: Json)
    requires Dumps(j1) == Dumps(j2)
    ensures j1 == j2
  {
    ParseJsonDumps(j1);
    ParseJsonDumps(j2);
  }
}

=== FILE: json_print.dfy ===
/**
 * `json.dumps(v, separators=(",", ":"), ensure_ascii=False)`: compact JSON
 * text with no whitespace between tokens, fields in insertion order, and
 * non-ASCII characters written as themselves. Inside strings only `"`, `\`
 * and the C0 control characters are escaped, exactly as Python's encoder
 * does (`\b \t \n \f \r` by name, the rest as `\u00xx` in lowercase hex).
 */
module JsonPrint {
  import opened Json
  import Decimal
  import Hex

  /** The escape sequence for one character of a JSON string. */
  function EscapeChar(c: char): (r: string)
    ensures |r| >= 1
    ensures forall i :: 0 <= i < |r| ==> r[i] as int >= 0x20
    ensures c as int >= 0x20 && c != '"' && c != '\\' <==> r == [c]
  {
    var n := c as int;
    if c == '"' then "\\\""
    else if c == '\\' then "\\\\"
    else if n == 0x08 then "\\b"
    else if n == 0x09 then "\\t"
    else if n == 0x0A then "\\n"
    else if n == 0x0C then "\\f"
    else if n == 0x0D then "\\r"
    else if n < 0x20 then "\\u00" + [Hex.Digits[n / 16], Hex.Digits[n % 16]]
    else [c]
  }

  /** The body of a JSON string literal for `s`. */
  function Escape(s: string): (r: string)
    ensures |r| >= |s|
  {
    if |s| == 0 then "" else EscapeChar(s[0]) + Escape(s[1..])
  }

  /** A JSON string literal. */
  function Quote(s: string): string {
    "\"" + Escape(s) + "\""
  }

  function Dumps(j: Json): (r: string)
    ensures |r| >= 1
    decreases j
  {
    match j
    case JNull => "null"
    case JBool(b) => if b then "true" else "false"
    case JInt(n) => Decimal.IntToString(n)
    case JStr(s) => Quote(s)
    case JArr(items) => "[" + DumpsItems(items) + "]"
    case JObj(fields) => "{" + DumpsFields(fields) + "}"
  }

  /** Array elements separated by commas. */
  function DumpsItems(items: seq<Json>): string
    decreases items
  {
    if |items| == 0 then ""
    else if |items| == 1 then Dumps(items[0])
    else Dumps(items[0]) + "," + DumpsItems(items[1..])
  }

  /** Object members `"key":value` separated by commas. */
  function DumpsFields(fields: seq<Field>): string
    decreases fields
  {
    if |fields| == 0 then ""
    else if |fields| == 1 then DumpsField(fields[0])
    else DumpsField(fields[0]) + "," + DumpsFields(fields[1..])
  }

  function DumpsField(f: Field): string
    decreases f
  {
    Quote(f.key) + ":" + Dumps(f.value)
  }

  // ---------------------------------------------------------------------
  // Compactness: no whitespace between tokens

  /** JSON's insignificant whitespace characters. */
  predicate IsWhitespace(c: char) {
    c == ' ' || c == '\t' || c == '\n' || c == '\r'
  }

  /** Every character's code point is at least `lo`. */
  predicate AllAbove(s: string, lo: int) {
    forall i :: 0 <= i < |s| ==> s[i] as int >= lo
  }

  /** No string in `j`, neither a key nor a value, contains a space. */
  predicate SpaceFree(j: Json)
    decreases j
  {
    match j
    case JStr(s) => ' ' !in s
    case JArr(items) => forall i :: 0 <= i < |items| ==> SpaceFree(items[i])
    case JObj(fields) => forall i :: 0 <= i < |fields| ==> FieldSpaceFree(fields[i])
    case _ => true
  }

  predicate FieldSpaceFree(f: Field)
    decreases f
  {
    ' ' !in f.key && SpaceFree(f.value)
  }

  lemma AllAboveAppend(a: string, b: string, lo: int)
    requires AllAbove(a, lo) && AllAbove(b, lo)
    ensures AllAbove(a + b, lo)
  {
    forall i | 0 <= i < |a + b|
      ensures (a + b)[i] as int >= lo
    {
      if i >= |a| {
        assert (a + b)[i] == b[i - |a|];
      }
    }
  }

  lemma {:induction false} EscapeAbove(s: string, lo: int)
    requires lo <= 0x21
    requires lo == 0x21 ==> ' ' !in s
    ensures AllAbove(Escape(s), lo)
  {
    if |s| > 0 {
      assert s[0] in s;
      assert lo == 0x21 ==> ' ' !in s[1..];
      EscapeAbove(s[1..], lo);
      EscapeCharAbove(s[0], lo);
      AllAboveAppend(EscapeChar(s[0]), Escape(s[1..]), lo);
    }
  }

  lemma EscapeCharAbove(c: char, lo: int)
    requires lo <= 0x21 && (lo == 0x21 ==> c != ' ')
    ensures AllAbove(EscapeChar(c), lo)
  {
  }

  lemma QuoteAbove(s: string, lo: int)
    requires lo <= 0x21
    requires lo == 0x21 ==> ' ' !in s
    ensures AllAbove(Quote(s), lo)
  {
    EscapeAbove(s, lo);
    AllAboveAppend("\"", Escape(s), lo);
    AllAboveAppend("\"" + Escape(s), "\"", lo);
  }

  lemma IntAbove(n: int, lo: int)
    requires lo <= 0x21
    ensures AllAbove(Decimal.IntToString(n), lo)
  {
    var d := Decimal.NatToString(if n < 0 then -n else n);
    assert forall i :: 0 <= i < |d| ==> Decimal.IsDigit(d[i]);
    if n < 0 {
      AllAboveAppend("-", d, lo);
    }
  }

  /** The printed text of `j` has only characters at or above `lo`. */
  lemma {:induction false} DumpsAbove(j: Json, lo: int)
    requires lo <= 0x21
    requires lo == 0x21 ==> SpaceFree(j)
    ensures AllAbove(Dumps(j), lo)
    decreases j
  {
    match j
    case JNull =>
    case JBool(b) =>
    case JInt(n) => IntAbove(n, lo);
    case JStr(s) => QuoteAbove(s, lo);
    case JArr(items) =>
      ItemsAbove(items, lo);
      AllAboveAppend("[", DumpsItems(items), lo);
      AllAboveAppend("[" + DumpsItems(items), "]", lo);
    case JObj(fields) =>
      FieldsAbove(fields, lo);
      AllAboveAppend("{", DumpsFields(fields), lo);
      AllAboveAppend("{" + DumpsFields(fields), "}", lo);
  }

  lemma {:induction false} ItemsAbove(items: seq<Json>, lo: int)
    requires lo <= 0x21
    requires lo == 0x21 ==> forall i :: 0 <= i < |items| ==> SpaceFree(items[i])
    ensures AllAbove(DumpsItems(items), lo)
    decreases items
  {
    if |items| >= 1 {
      DumpsAbove(items[0], lo);
      if |items| > 1 {
        assert lo == 0x21 ==> forall i :: 0 <= i < |items[1..]| ==> SpaceFree(items[1..][i]) by {
          if lo == 0x21 {
            forall i | 0 <= i < |items[1..]| ensures SpaceFree(items[1..][i]) {
              assert items[1..][i] == items[i + 1];
            }
          }
        }
        ItemsAbove(items[1..], lo);
        AllAboveAppend(Dumps(items[0]), ",", lo);
        AllAboveAppend(Dumps(items[0]) + ",", DumpsItems(items[1..]), lo);
      }
    }
  }

  lemma {:induction false} FieldsAbove(fields: seq<Field>, lo: int)
    requires lo <= 0x21
    requires lo == 0x21 ==> forall i :: 0 <= i < |fields| ==> FieldSpaceFree(fields[i])
    ensures AllAbove(DumpsFields(fields), lo)
    decreases fields
  {
    if |fields| >= 1 {
      FieldAbove(fields[0], lo);
      if |fields| > 1 {
        assert lo == 0x21 ==> forall i :: 0 <= i < |fields[1..]| ==> FieldSpaceFree(fields[1..][i]) by {
          if lo == 0x21 {
            forall i | 0 <= i < |fields[1..]| ensures FieldSpaceFree(fields[1..][i]) {
              assert fields[1..][i] == fields[i + 1];
            }
          }
        }
        FieldsAbove(fields[1..], lo);
        AllAboveAppend(DumpsField(fields[0]), ",", lo);
        AllAboveAppend(DumpsField(fields[0]) + ",", DumpsFields(fields[1..]), lo);
      }
    }
  }

  lemma {:induction false} FieldAbove(f: Field, lo: int)
    requires lo <= 0x21
    requires lo == 0x21 ==> FieldSpaceFree(f)
    ensures AllAbove(DumpsField(f), lo)
    decreases f
  {
    QuoteAbove(f.key, lo);
    DumpsAbove(f.value, lo);
    AllAboveAppend(Quote(f.key), ":", lo);
    AllAboveAppend(Quote(f.key) + ":", Dumps(f.value), lo);
  }

  /**
   * The printed text holds no C0 control character (U+0000–U+001F), so no
   * tab, line feed or carriage return: those are escaped inside strings and
   * never emitted between tokens. DEL and U+0080–U+009F are written as they are.
   */
  lemma DumpsNoControl(j: Json)
    ensures forall i :: 0 <= i < |Dumps(j)| ==> Dumps(j)[i] as int >= 0x20
  {
    DumpsAbove(j, 0x20);
  }

  /**
   * Whitespace can only come from the strings themselves: when no key or
   * string value holds a space, the printed text holds no JSON whitespace.
   */
  lemma DumpsNoWhitespace(j: Json)
    requires SpaceFree(j)
    ensures forall i :: 0 <= i < |Dumps(j)| ==> !IsWhitespace(Dumps(j)[i])
  {
    DumpsAbove(j, 0x21);
  }
}

=== FILE: market.dfy ===
/**
 * `get_chart`: the candle query, whose `timestamp` and `size` are sent only
 * when supplied (Python's None, here JSON null, otherwise).
 */
module Market {
  import opened Json
  import opened Options
  import Dicts
  import Coinone
  import Responses

  /** The query of `get_chart`: `interval`, then `timestamp` and `size` each if not None. */
  function ChartParams(interval: string, timestamp: Json, size: Json): Dict {
    Dicts.SetEach([Field("interval", JStr(interval))], [Field("timestamp", timestamp), Field("size", size)])
  }

  /** The chart query holds `interval`, then whichever of `timestamp` and `size` were supplied, in that order. */
  lemma ChartParamsFields(interval: string, timestamp: Json, size: Json)
    ensures ChartParams(interval, timestamp, size) ==
      [Field("interval", JStr(interval))] + Dicts.Given("timestamp", timestamp) + Dicts.Given("size", size)
  {
    var m := [Field("interval", JStr(interval))];
    var t, z := Field("timestamp", timestamp), Field("size", size);
    // Distinct first characters tell the keys apart without a full string comparison.
    assert "interval"[0] != "timestamp"[0] && "interval"[0] != "size"[0] && "timestamp"[0] != "size"[0];
    Dicts.UniqueKeysThree(m[0], t, z);
    assert m == [m[0]];
    Dicts.SetEachAppends(m, [t, z]);
    Dicts.SuppliedTwo(t, z);
  }

  /**
   * `get_chart`: one public GET to the chart path of the pair, with the chart
   * query; `_get` sets the Accept header and classifies the response.
   */
  function GetChart(c: Coinone.Client, quote: string, target: string, interval: string, timestamp: Json, size: Json,
                    transport: Coinone.Transport): (x: Coinone.Exchange)
    ensures x.sent.Some? && x.sent.value.GetRequest?
    ensures x.sent.value.url == Coinone.PublicBaseUrl + "/chart/" + quote + "/" + target
    ensures x.sent.value.query ==
      Some([Field("interval", JStr(interval))] + Dicts.Given("timestamp", timestamp) + Dicts.Given("size", size))
    ensures Coinone.HeaderValue(x.sent.value.headers, Coinone.AcceptHeader) == Some(Coinone.JsonContentType)
    ensures x.outcome == Responses.ClassifyPublic(transport(x.sent.value))
  {
    ChartParamsFields(interval, timestamp, size);
    Coinone.Get(c, "/chart/" + quote + "/" + target, Some(ChartParams(interval, timestamp, size)), transport)
  }
}

=== FILE: options.dfy ===
/** Python's `Optional[...]`: a value or None. */
module Options {

  datatype Option<T> = None | Some(value: T) {

    /** `x if x is not None else fallback`; the two ensures only restate the body's two cases. */
    function GetOr(fallback: T): (r: T)
      ensures Some? ==> r == value
      ensures None? ==> r == fallback
    {
      if Some? then value else fallback
    }
  }
}

=== FILE: orders.dfy ===
/**
 * `place_order`: the order dict it assembles from its arguments and the
 * private call that carries it. Optional arguments are Python's None, here
 * JSON null, when not supplied.
 */
module Orders {
  import opened Json
  import opened Options
  import Dicts
  import Payload
  import Coinone
  import Errors
  import Responses

  datatype OrderRequest = OrderRequest(
    quoteCurrency: string, targetCurrency: string, side: string, orderType: string,
    price: Json, qty: Json, amount: Json, postOnly: Json,
    limitPrice: Json, triggerPrice: Json, userOrderId: Json)

  const OrderPath: string := "/v2.1/order"

  /** Python's `bool(x)` of a decoded value: false for None, false, 0 and empty text or containers. */
  function PyBool(j: Json): bool {
    match j
    case JNull => false
    case JBool(b) => b
    case JInt(n) => n != 0
    case JStr(s) => |s| > 0
    case JArr(items) => |items| > 0
    case JObj(fields) => |fields| > 0
  }

  /** The `post_only` argument as it is stored: absent stays absent, anything else becomes a bool. */
  function PostOnlyValue(v: Json): (r: Json)
    ensures r == JNull <==> v == JNull
    ensures r != JNull ==> r.JBool?
  {
    if v == JNull then JNull else JBool(PyBool(v))
  }

  /** The four entries every order carries. */
  function MandatoryFields(o: OrderRequest): Dict {
    [ Field("quote_currency", JStr(o.quoteCurrency)),
      Field("target_currency", JStr(o.targetCurrency)),
      Field("side", JStr(o.side)),
      Field("type", JStr(o.orderType)) ]
  }

  /** The optional arguments in the order `place_order` tests them, each null when not supplied. */
  function OptionalArgs(o: OrderRequest): Dict {
    [ Field("price", o.price),
      Field("qty", o.qty),
      Field("amount", o.amount),
      Field("post_only", PostOnlyValue(o.postOnly)),
      Field("limit_price", o.limitPrice),
      Field("trigger_price", o.triggerPrice),
      Field("user_order_id", o.userOrderId) ]
  }

  /** The order dict: the mandatory entries, then each optional one assigned if it is not None. */
  function OrderPayload(o: OrderRequest): Dict {
    Dicts.SetEach(MandatoryFields(o), OptionalArgs(o))
  }

  /** Every key an order dict can hold, in order. */
  const OrderKeys: seq<string> := [
    "quote_currency", "target_currency", "side", "type",
    "price", "qty", "amount", "post_only", "limit_price", "trigger_price", "user_order_id" ]

  lemma OrderKeysOfArgs(o: OrderRequest)
    ensures Dicts.Keys(MandatoryFields(o) + OptionalArgs(o)) == OrderKeys
  {
    var all := MandatoryFields(o) + OptionalArgs(o);
    var ks := Dicts.Keys(all);
    assert |ks| == |OrderKeys|;
    forall i | 0 <= i < |ks| ensures ks[i] == OrderKeys[i] {
      assert ks[i] == all[i].key;
    }
  }

  lemma OrderKeysDistinct(o: OrderRequest)
    ensures Dicts.UniqueKeys(MandatoryFields(o) + OptionalArgs(o))
  {
    var all := MandatoryFields(o) + OptionalArgs(o);
    OrderKeysOfArgs(o);
    OrderKeysAreDistinct();
    forall i, j | 0 <= i < j < |all| ensures all[i].key != all[j].key {
      assert all[i].key == OrderKeys[i] && all[j].key == OrderKeys[j];
    }
  }

  /** Keys of equal length differ in their first character. */
  lemma OrderKeysAreDistinct()
    ensures forall i, j :: 0 <= i < j < |OrderKeys| ==> OrderKeys[i] != OrderKeys[j]
  {
    forall i, j | 0 <= i < j < |OrderKeys| ensures OrderKeys[i] != OrderKeys[j] {
      assert |OrderKeys[i]| != |OrderKeys[j]| || OrderKeys[i][0] != OrderKeys[j][0];
    }
  }

  /**
   * The dict `place_order` sends: the four mandatory entries, then each
   * optional entry that was supplied, in the fixed order.
   */
  lemma OrderPayloadFields(o: OrderRequest)
    ensures OrderPayload(o) == MandatoryFields(o) + Dicts.Supplied(OptionalArgs(o))
  {
    OrderKeysDistinct(o);
    Dicts.SetEachAppends(MandatoryFields(o), OptionalArgs(o));
  }

  /** An order dict never repeats a key and holds no key outside the eleven keys `place_order` can set. */
  lemma OrderPayloadKeys(o: OrderRequest)
    ensures Dicts.UniqueKeys(OrderPayload(o))
    ensures forall k :: k in Dicts.Keys(OrderPayload(o)) ==> k in OrderKeys
  {
    MandatoryKeysDistinct(o);
    Dicts.SetEachKeepsUniqueKeys(MandatoryFields(o), OptionalArgs(o));
    OrderPayloadFields(o);
    OrderKeysOfArgs(o);
    Dicts.SuppliedKeysWithin(MandatoryFields(o), OptionalArgs(o));
  }

  lemma MandatoryKeysDistinct(o: OrderRequest)
    ensures Dicts.UniqueKeys(MandatoryFields(o))
  {
    var m := MandatoryFields(o);
    forall i, j | 0 <= i < j < |m| ensures m[i].key != m[j].key {
      assert m[i].key == OrderKeys[i] && m[j].key == OrderKeys[j];
    }
  }

  /** Each mandatory argument is in the order dict as given. */
  lemma MandatoryLookup(o: OrderRequest)
    ensures var p := OrderPayload(o);
      && Dicts.Lookup(p, "quote_currency") == Some(JStr(o.quoteCurrency))
      && Dicts.Lookup(p, "target_currency") == Some(JStr(o.targetCurrency))
      && Dicts.Lookup(p, "side") == Some(JStr(o.side))
      && Dicts.Lookup(p, "type") == Some(JStr(o.orderType))
  {
    OrderPayloadFields(o);
    var m := MandatoryFields(o);
    var s := Dicts.Supplied(OptionalArgs(o));
    MandatoryKeysDistinct(o);
    Dicts.LookupPrefix(m, s, 0);
    Dicts.LookupPrefix(m, s, 1);
    Dicts.LookupPrefix(m, s, 2);
    Dicts.LookupPrefix(m, s, 3);
  }

  /** Each optional argument is in the order dict exactly when it was supplied, `post_only` as a bool. */
  lemma OptionalLookup(o: OrderRequest)
    ensures var p := OrderPayload(o);
      && Dicts.Lookup(p, "price") == Dicts.GivenValue(o.price)
      && Dicts.Lookup(p, "qty") == Dicts.GivenValue(o.qty)
      && Dicts.Lookup(p, "amount") == Dicts.GivenValue(o.amount)
      && Dicts.Lookup(p, "post_only") == (if o.postOnly == JNull then None else Some(JBool(PyBool(o.postOnly))))
      && Dicts.Lookup(p, "limit_price") == Dicts.GivenValue(o.limitPrice)
      && Dicts.Lookup(p, "trigger_price") == Dicts.GivenValue(o.triggerPrice)
      && Dicts.Lookup(p, "user_order_id") == Dicts.GivenValue(o.userOrderId)
  {
    OrderPayloadFields(o);
    OrderKeysDistinct(o);
    var m := MandatoryFields(o);
    var args := OptionalArgs(o);
    Dicts.SuppliedLookup(m, args, 0);
    Dicts.SuppliedLookup(m, args, 1);
    Dicts.SuppliedLookup(m, args, 2);
    Dicts.SuppliedLookup(m, args, 3);
    Dicts.SuppliedLookup(m, args, 4);
    Dicts.SuppliedLookup(m, args, 5);
    Dicts.SuppliedLookup(m, args, 6);
  }

  /** An order dict never holds the two keys the signed body adds. */
  lemma SigningKeysNotInOrder(o: OrderRequest)
    ensures Payload.AccessTokenKey !in Dicts.Keys(OrderPayload(o))
    ensures Payload.NonceKey !in Dicts.Keys(OrderPayload(o))
  {
    OrderPayloadKeys(o);
    assert Payload.AccessTokenKey !in OrderKeys && Payload.NonceKey !in OrderKeys;
  }

  /**
   * `place_order`: a private call to the order path whose signed body is the
   * order dict followed by `access_token` and `nonce`, which an order dict
   * never holds itself. Everything else is `_post_v21`'s: the credentials
   * error, the signing headers and the private classification.
   */
  function PlaceOrder(c: Coinone.Client, o: OrderRequest, nonce: string, hmac: Payload.Hmac, transport: Coinone.Transport): (x: Coinone.Exchange)
    ensures x.sent.None? <==> !Coinone.HasCredentials(c)
    ensures x.sent.None? ==>
      x.outcome == Responses.Raised(Errors.CoinoneError(Errors.ApiError, JStr(Coinone.MissingCredentialsMessage), JNull, None))
    ensures x.sent.Some? ==>
      && x.sent.value == Coinone.SignedRequest(c, OrderPath, OrderPayload(o), nonce, hmac)
      && x.outcome == Responses.ClassifyPrivate(transport(x.sent.value))
    ensures x.sent.Some? ==>
      && Coinone.HeaderValue(x.sent.value.headers, Coinone.ContentTypeHeader) == Some(Coinone.JsonContentType)
      && Coinone.HeaderValue(x.sent.value.headers, Coinone.SignatureHeader)
           == Some(Payload.Sign(c.secretKey.value, x.sent.value.body, hmac))
    ensures x.sent.Some? ==>
      && x.sent.value.PostRequest?
      && x.sent.value.url == Coinone.PrivateBaseUrl + OrderPath
      && Payload.DecodePayload(x.sent.value.body) == Some(
           OrderPayload(o) + [Field(Payload.AccessTokenKey, JStr(c.accessToken.value)), Field(Payload.NonceKey, JStr(nonce))])
  {
    SigningKeysNotInOrder(o);
    Payload.SignedBodyAppends(OrderPayload(o), c.accessToken.GetOr(""), nonce);
    Coinone.PostV21(c, OrderPath, OrderPayload(o), nonce, hmac, transport)
  }
}

=== FILE: payload.dfy ===
/**
 * The signed payload of a private (V2.1) call: the caller's parameters with
 * `access_token` and `nonce` assigned, serialised as compact JSON, encoded
 * as UTF-8 and then as base64; and the signature over those base64 octets.
 */
module Payload {
  import opened Options
  import opened Bytes
  import opened Json
  import Dicts
  import JsonPrint
  import JsonParse
  import Utf8
  import Base64
  import Hex

  /**
   * HMAC-SHA512 from key octets and message octets to digest octets. It is
   * left uninterpreted: the model only relies on it being a function.
   */
  type Hmac = (seq<byte>, seq<byte>) -> seq<byte>

  const AccessTokenKey: string := "access_token"
  const NonceKey: string := "nonce"

  /** The keys the payload builder adds to the caller's parameters, in that order. */
  function AddedKeys(params: Dict): seq<string> {
    (if AccessTokenKey in Dicts.Keys(params) then [] else [AccessTokenKey]) +
    (if NonceKey in Dicts.Keys(params) then [] else [NonceKey])
  }

  /** A copy of `params`, then `access_token`, then `nonce` assigned as in a Python dict. */
  function SignedBody(params: Dict, accessToken: string, nonce: string): (body: Dict)
    ensures Dicts.Lookup(body, AccessTokenKey) == Some(JStr(accessToken))
    ensures Dicts.Lookup(body, NonceKey) == Some(JStr(nonce))
  {
    Dicts.InsertLookupOther(Dicts.Insert(params, AccessTokenKey, JStr(accessToken)), NonceKey, JStr(nonce), AccessTokenKey);
    Dicts.Insert(Dicts.Insert(params, AccessTokenKey, JStr(accessToken)), NonceKey, JStr(nonce))
  }

  /** The compact JSON text of the signed body. */
  function PayloadText(params: Dict, accessToken: string, nonce: string): string {
    JsonPrint.Dumps(JObj(SignedBody(params, accessToken, nonce)))
  }

  /**
   * Base64 of the UTF-8 octets of a text: always ASCII, four characters per
   * started octet triple, and base64-decoding it gives the octets back.
   */
  function EncodeText(text: string): (encoded: seq<byte>)
    ensures |encoded| == 4 * ((|Utf8.Encode(text)| + 2) / 3)
    ensures IsAscii(encoded)
    ensures Base64.Decode(encoded) == Some(Utf8.Encode(text))
  {
    var octets := Utf8.Encode(text);
    Base64.EncodeAlphabet(octets);
    Base64.DecodeEncode(octets);
    Base64.Encode(octets)
  }

  /** The encoded payload: base64 of the UTF-8 octets of the compact JSON text. */
  function EncodePayload(params: Dict, accessToken: string, nonce: string): (encoded: seq<byte>)
    ensures IsAscii(encoded)
    ensures Base64.Decode(encoded) == Some(Utf8.Encode(PayloadText(params, accessToken, nonce)))
  {
    EncodeText(PayloadText(params, accessToken, nonce))
  }

  /**
   * The signature: the HMAC of the encoded payload octets, keyed by the
   * UTF-8 octets of the secret key, as lowercase hexadecimal.
   */
  function Sign(secretKey: string, encoded: seq<byte>, hmac: Hmac): (signature: string)
    ensures |signature| == 2 * |hmac(Utf8.Encode(secretKey), encoded)|
    ensures forall i :: 0 <= i < |signature| ==> signature[i] in Hex.Digits
    ensures Hex.Decode(signature) == Some(hmac(Utf8.Encode(secretKey), encoded))
  {
    var digest := hmac(Utf8.Encode(secretKey), encoded);
    Hex.EncodeIsLowerHex(digest);
    Hex.DecodeEncode(digest);
    Hex.Encode(digest)
  }

  /** What a receiver recovers from an encoded payload: base64, then UTF-8, then JSON. */
  function DecodePayload(encoded: seq<byte>): Option<Dict> {
    match Base64.Decode(encoded)
    case None => None
    case Some(octets) =>
      match Utf8.Decode(octets)
      case None => None
      case Some(text) =>
        match JsonParse.ParseJson(text)
        case Some(JObj(fields)) => Some(fields)
        case _ => None
  }

  // ---------------------------------------------------------------------
  // Shape of the signed body

  /** The caller's keys in their order, then whichever of `access_token` and `nonce` were new. */
  lemma SignedBodyKeys(params: Dict, accessToken: string, nonce: string)
    ensures Dicts.Keys(SignedBody(params, accessToken, nonce)) == Dicts.Keys(params) + AddedKeys(params)
  {
    var ks := Dicts.Keys(params);
    Dicts.InsertTwiceKeys(params, AccessTokenKey, JStr(accessToken), NonceKey, JStr(nonce));
    Dicts.KeysAssoc(ks, if AccessTokenKey in ks then [] else [AccessTokenKey], if NonceKey in ks then [] else [NonceKey]);
  }

  /**
   * Every caller entry keeps its position; a caller entry for `access_token`
   * or `nonce` is overwritten where it stands, and every other entry is
   * carried over unchanged.
   */
  lemma SignedBodyKeepsCallerEntries(params: Dict, accessToken: string, nonce: string)
    ensures var body := SignedBody(params, accessToken, nonce);
      |body| >= |params| &&
      forall i :: 0 <= i < |params| ==>
        && body[i].key == params[i].key
        && (params[i].key != AccessTokenKey && params[i].key != NonceKey ==> body[i] == params[i])
  {
    var d1 := Dicts.Insert(params, AccessTokenKey, JStr(accessToken));
    Dicts.InsertKeepsPositions(params, AccessTokenKey, JStr(accessToken));
    Dicts.InsertKeepsPositions(d1, NonceKey, JStr(nonce));
  }

  /** When neither key is present, the two new entries are appended in order. */
  lemma SignedBodyAppends(params: Dict, accessToken: string, nonce: string)
    requires AccessTokenKey !in Dicts.Keys(params) && NonceKey !in Dicts.Keys(params)
    ensures SignedBody(params, accessToken, nonce) ==
      params + [Field(AccessTokenKey, JStr(accessToken)), Field(NonceKey, JStr(nonce))]
  {
    // Distinct first characters tell the keys apart without a full string comparison.
    assert AccessTokenKey[0] != NonceKey[0];
    Dicts.InsertTwiceAppends(params, AccessTokenKey, JStr(accessToken), NonceKey, JStr(nonce));
  }

  /** Every other key looks up exactly as in the caller's parameters. */
  lemma SignedBodyLookupOther(params: Dict, accessToken: string, nonce: string, k: string)
    requires k != AccessTokenKey && k != NonceKey
    ensures Dicts.Lookup(SignedBody(params, accessToken, nonce), k) == Dicts.Lookup(params, k)
  {
    var d1 := Dicts.Insert(params, AccessTokenKey, JStr(accessToken));
    Dicts.InsertLookupOther(params, AccessTokenKey, JStr(accessToken), k);
    Dicts.InsertLookupOther(d1, NonceKey, JStr(nonce), k);
  }

  /** A dict in, a dict out: the signed body never repeats a key. */
  lemma SignedBodyUniqueKeys(params: Dict, accessToken: string, nonce: string)
    requires Dicts.UniqueKeys(params)
    ensures Dicts.UniqueKeys(SignedBody(params, accessToken, nonce))
  {
    var d1 := Dicts.Insert(params, AccessTokenKey, JStr(accessToken));
    Dicts.InsertKeepsUniqueKeys(params, AccessTokenKey, JStr(accessToken));
    Dicts.InsertKeepsUniqueKeys(d1, NonceKey, JStr(nonce));
  }

  // ---------------------------------------------------------------------
  // What the encoded octets mean

  /**
   * Base64-decoding the encoded payload gives the UTF-8 octets of the JSON
   * text, UTF-8-decoding those gives the text itself, and reading the text
   * gives back the signed body.
   */
  lemma PayloadRoundTrip(params: Dict, accessToken: string, nonce: string)
    ensures var text := PayloadText(params, accessToken, nonce);
      && Base64.Decode(EncodePayload(params, accessToken, nonce)) == Some(Utf8.Encode(text))
      && Utf8.Decode(Utf8.Encode(text)) == Some(text)
      && JsonParse.ParseJson(text) == Some(JObj(SignedBody(params, accessToken, nonce)))
      && DecodePayload(EncodePayload(params, accessToken, nonce)) == Some(SignedBody(params, accessToken, nonce))
  {
    var text := PayloadText(params, accessToken, nonce);
    Base64.DecodeEncode(Utf8.Encode(text));
    Utf8.DecodeEncode(text);
    JsonParse.ParseJsonDumps(JObj(SignedBody(params, accessToken, nonce)));
  }

  /** Equal encoded payloads carry equal signed bodies. */
  lemma EncodePayloadInjective(p1: Dict, t1: string, n1: string, p2: Dict, t2: string, n2: string)
    requires EncodePayload(p1, t1, n1) == EncodePayload(p2, t2, n2)
    ensures SignedBody(p1, t1, n1) == SignedBody(p2, t2, n2)
  {
    PayloadRoundTrip(p1, t1, n1);
    PayloadRoundTrip(p2, t2, n2);
  }

  /**
   * Two calls with different nonces send different payloads, whatever their
   * parameters and tokens: the nonce alone makes each payload distinct.
   */
  lemma DistinctNoncesDistinctPayloads(p1: Dict, t1: string, n1: string, p2: Dict, t2: string, n2: string)
    requires n1 != n2
    ensures EncodePayload(p1, t1, n1) != EncodePayload(p2, t2, n2)
  {
    PayloadRoundTrip(p1, t1, n1);
    PayloadRoundTrip(p2, t2, n2);
  }

  /**
   * The payload text is compact: it holds no C0 control character
   * (U+0000–U+001F), and no JSON whitespace (space, tab, line feed, carriage
   * return) unless a key or string value itself holds a space.
   */
  lemma PayloadTextCompact(params: Dict, accessToken: string, nonce: string)
    ensures var text := PayloadText(params, accessToken, nonce);
      forall i :: 0 <= i < |text| ==> text[i] as int >= 0x20
    ensures JsonPrint.SpaceFree(JObj(SignedBody(params, accessToken, nonce))) ==>
      var text := PayloadText(params, accessToken, nonce);
      forall i :: 0 <= i < |text| ==> !JsonPrint.IsWhitespace(text[i])
  {
    var j := JObj(SignedBody(params, accessToken, nonce));
    JsonPrint.DumpsNoControl(j);
    if JsonPrint.SpaceFree(j) {
      JsonPrint.DumpsNoWhitespace(j);
    }
  }
}

=== FILE: pystr.dfy ===
/**
 * Python's `str()` and `repr()` of a decoded JSON value: what `str(x)` makes
 * of `None`, a bool, an int, a str, a list or a dict.
 */
module PyStr {
  import opened Json
  import Decimal
  import Hex

  /** `repr()` of one character inside a quoted string literal using `quote`. */
  function ReprChar(c: char, quote: char): (r: string)
    ensures |r| >= 1
  {
    if c == '\\' then "\\\\"
    else if c == quote then ['\\', quote]
    else if c == '\n' then "\\n"
    else if c == '\r' then "\\r"
    else if c == '\t' then "\\t"
    else if c < ' ' || c as int == 0x7f then
      "\\x" + [Hex.Digits[c as int / 16], Hex.Digits[c as int % 16]]
    else [c]
  }

  function ReprChars(s: string, quote: char): string {
    if |s| == 0 then "" else ReprChar(s[0], quote) + ReprChars(s[1..], quote)
  }

  /** `repr(s)`: single quotes unless the text holds a `'` and no `"`. */
  function ReprString(s: string): (r: string)
    ensures |r| >= 2 && r[0] == r[|r| - 1] && (r[0] == '\'' || r[0] == '"')
  {
    var quote := if '\'' in s && '"' !in s then '"' else '\'';
    [quote] + ReprChars(s, quote) + [quote]
  }

  /** `str(x)`: a str is itself, every other value is its `repr`. */
  function Str(j: Json): (r: string)
    decreases j
  {
    match j
    case JStr(s) => s
    case _ => Repr(j)
  }

  /** `repr(x)` of a decoded JSON value. */
  function Repr(j: Json): (r: string)
    ensures |r| >= 1
    ensures j.JArr? ==> r[0] == '['
    ensures j.JObj? ==> r[0] == '{'
    decreases j
  {
    match j
    case JNull => "None"
    case JBool(b) => if b then "True" else "False"
    case JInt(n) => Decimal.IntToString(n)
    case JStr(s) => ReprString(s)
    case JArr(items) => "[" + ReprItems(items) + "]"
    case JObj(fields) => "{" + ReprFields(fields) + "}"
  }

  function ReprItems(items: seq<Json>): string
    decreases items
  {
    if |items| == 0 then ""
    else if |items| == 1 then Repr(items[0])
    else Repr(items[0]) + ", " + ReprItems(items[1..])
  }

  function ReprFields(fields: seq<Field>): string
    decreases fields
  {
    if |fields| == 0 then ""
    else if |fields| == 1 then ReprField(fields[0])
    else ReprField(fields[0]) + ", " + ReprFields(fields[1..])
  }

  function ReprField(f: Field): string
    decreases f
  {
    ReprString(f.key) + ": " + Repr(f.value)
  }

  /**
   * `str(x) == "4"` holds exactly of the integer four and the one-character
   * string "4": not of "04", " 4", 4 inside a list, or anything else.
   */
  lemma StrIsFour(j: Json)
    ensures Str(j) == "4" <==> j == JInt(4) || j == JStr("4")
  {
    match j
    case JInt(n) => Decimal.IntToStringIsFour(n);
    case JStr(s) =>
    case JNull =>
    case JBool(b) =>
    case JArr(items) => assert Str(j)[0] == '[';
    case JObj(fields) => assert Str(j)[0] == '{';
  }
}

=== FILE: responses.dfy ===
/**
 * How the client turns an HTTP response into a result or an exception: the
 * public GET path and the private V2.1 POST path read the same three things
 * (the status, the body as JSON, the `result` field) but not in the same way.
 */
module Responses {
  import opened Options
  import opened Json
  import opened Errors
  import Dicts
  import PyStr

  datatype Header = Header(name: string, value: string)

  /**
   * What the transport hands back. `body` is what `resp.json()` gives: None
   * when the body is not JSON. `statusErrorText` is the text of the
   * `HTTPError` that `raise_for_status` raises for this response.
   */
  datatype Response = Response(status: int, statusErrorText: string, body: Option<Json>, headers: seq<Header>)

  /**
   * What a call ends in: the decoded body with the response headers, one of
   * the client's own exceptions, or another Python exception escaping.
   */
  datatype Outcome =
    | Returned(body: Json, headers: seq<Header>)
    | Raised(error: CoinoneError)
    | Uncaught(exception: string)

  const HttpErrorMessage: string := "HTTP 错误"
  const InvalidJsonMessage: string := "API 返回了无效的 JSON"
  const ApiErrorMessage: string := "API 错误"
  const RateLimitMessage: string := "请求频率过高"

  /** `raise_for_status` raises for client errors (4xx) and server errors (5xx) only. */
  predicate RaisesForStatus(status: int) {
    400 <= status < 600
  }

  /** A dict whose `result` is the string "error". */
  predicate IsErrorEnvelope(j: Json) {
    j.JObj? && Dicts.Get(j.fields, "result") == JStr("error")
  }

  /** The server's error code: `j.get("error_code")`, null when absent. */
  function ErrorCode(j: Json): Json
    requires j.JObj?
  {
    Dicts.Get(j.fields, "error_code")
  }

  /** `j.get("error_msg", default)`. */
  function ErrorMessage(j: Json, default: string): Json
    requires j.JObj?
  {
    Dicts.GetOr(j.fields, "error_msg", JStr(default))
  }

  /** The codes that mean "too many requests": the integer 4 and the string "4". */
  predicate IsRateLimitCode(code: Json) {
    code == JInt(4) || code == JStr("4")
  }

  /** The status and body checks of the public `_get`. */
  function ClassifyPublic(resp: Response): (o: Outcome)
    ensures !o.Uncaught?
    ensures o.Raised? ==> o.error.cls == ApiError
    ensures o.Returned? <==>
      !RaisesForStatus(resp.status) && resp.body.Some? && !IsErrorEnvelope(resp.body.value)
    ensures o.Returned? ==> o.body == resp.body.value && o.headers == resp.headers
    ensures o.Raised? ==>
      o.error.httpStatus == if RaisesForStatus(resp.status) || resp.body.None? then Some(resp.status) else None
    ensures RaisesForStatus(resp.status) ==>
      o == Raised(CoinoneError(ApiError, JStr(HttpErrorMessage + ": " + resp.statusErrorText), JNull, Some(resp.status)))
  {
    if RaisesForStatus(resp.status) then
      Raised(CoinoneError(ApiError, JStr(HttpErrorMessage + ": " + resp.statusErrorText), JNull, Some(resp.status)))
    else
      match resp.body
      case None => Raised(CoinoneError(ApiError, JStr(InvalidJsonMessage), JNull, Some(resp.status)))
      case Some(j) =>
        if IsErrorEnvelope(j) then
          Raised(CoinoneError(ApiError, ErrorMessage(j, ApiErrorMessage), ErrorCode(j), None))
        else
          Returned(j, resp.headers)
  }

  /** The status and body checks of the private `_post_v21`, once the request has gone out. */
  function ClassifyPrivate(resp: Response): (o: Outcome)
    ensures o.Uncaught? <==>
      RaisesForStatus(resp.status) && resp.body.Some? && !resp.body.value.JObj?
    ensures o.Uncaught? ==> o.exception == "AttributeError"
    ensures o.Returned? <==>
      !RaisesForStatus(resp.status) && resp.body.Some? && !IsErrorEnvelope(resp.body.value)
    ensures o.Returned? ==> o.body == resp.body.value && o.headers == resp.headers
    ensures o.Raised? && IsRateLimit(o.error) <==>
      && !RaisesForStatus(resp.status)
      && resp.body.Some? && IsErrorEnvelope(resp.body.value)
      && IsRateLimitCode(ErrorCode(resp.body.value))
    ensures o.Raised? ==>
      o.error.httpStatus == if RaisesForStatus(resp.status) || resp.body.None? then Some(resp.status) else None
    ensures o.Raised? ==>
      o.error.code == if resp.body.Some? then ErrorCode(resp.body.value) else JNull
  {
    if RaisesForStatus(resp.status) then
      match resp.body
      case None => Raised(CoinoneError(ApiError, JStr(HttpErrorMessage), JNull, Some(resp.status)))
      case Some(j) =>
        if !j.JObj? then Uncaught("AttributeError")
        else Raised(CoinoneError(ApiError, ErrorMessage(j, HttpErrorMessage), ErrorCode(j), Some(resp.status)))
    else
      match resp.body
      case None => Raised(CoinoneError(ApiError, JStr(InvalidJsonMessage), JNull, Some(resp.status)))
      case Some(j) =>
        if IsErrorEnvelope(j) then
          var code := ErrorCode(j);
          PyStr.StrIsFour(code);
          if PyStr.Str(code) == "4" then
            Raised(CoinoneError(RateLimitError, ErrorMessage(j, RateLimitMessage), code, None))
          else
            Raised(CoinoneError(ApiError, ErrorMessage(j, ApiErrorMessage), code, None))
        else
          Returned(j, resp.headers)
  }

  /**
   * The messages: the server's `error_msg` whenever the body is a dict that
   * holds one, and otherwise the default of the branch taken.
   */
  lemma PrivateMessages(resp: Response)
    ensures var o := ClassifyPrivate(resp);
      o.Raised? ==>
        if resp.body.Some? && "error_msg" in Dicts.Keys(resp.body.value.fields) then
          Some(o.error.message) == Dicts.Lookup(resp.body.value.fields, "error_msg")
        else if RaisesForStatus(resp.status) then o.error.message == JStr(HttpErrorMessage)
        else if resp.body.None? then o.error.message == JStr(InvalidJsonMessage)
        else if IsRateLimitCode(ErrorCode(resp.body.value)) then o.error.message == JStr(RateLimitMessage)
        else o.error.message == JStr(ApiErrorMessage)
  {
    var o := ClassifyPrivate(resp);
    if !RaisesForStatus(resp.status) && resp.body.Some? && IsErrorEnvelope(resp.body.value) {
      PyStr.StrIsFour(ErrorCode(resp.body.value));
    }
  }

  /**
   * Away from 4xx/5xx statuses the two paths agree, except that the private
   * one singles out rate-limit codes.
   */
  lemma PublicAgreesWithPrivate(resp: Response)
    requires !RaisesForStatus(resp.status)
    requires !(resp.body.Some? && IsErrorEnvelope(resp.body.value) && IsRateLimitCode(ErrorCode(resp.body.value)))
    ensures ClassifyPublic(resp) == ClassifyPrivate(resp)
  {
    if resp.body.Some? && IsErrorEnvelope(resp.body.value) {
      PyStr.StrIsFour(ErrorCode(resp.body.value));
    }
  }

  /** Where the private path reports a rate limit, the public path reports a plain API error with the same code. */
  lemma PublicNeverRateLimits(resp: Response)
    requires !RaisesForStatus(resp.status)
    requires resp.body.Some? && IsErrorEnvelope(resp.body.value) && IsRateLimitCode(ErrorCode(resp.body.value))
    ensures ClassifyPrivate(resp).Raised? && IsRateLimit(ClassifyPrivate(resp).error)
    ensures ClassifyPublic(resp) ==
      Raised(ClassifyPrivate(resp).error.(cls := ApiError, message := ErrorMessage(resp.body.value, ApiErrorMessage)))
  {
  }
}

=== FILE: utf8.dfy ===
/**
 * UTF-8 (RFC 3629) over Dafny's `char`, which ranges over Unicode scalar
 * values. The client encodes both the JSON payload text and the secret key
 * with `str.encode("utf-8")`, and turns the base64 bytes back into header
 * text with `bytes.decode("utf-8")`.
 */
module Utf8 {
  import opened Options
  import opened Bytes

  /** The octets of one scalar value: 1, 2, 3 or 4 of them by magnitude. */
  function EncodeChar(c: char): (r: seq<byte>)
    ensures 1 <= |r| <= 4
    ensures |r| == 1 <==> c as int < 0x80
    ensures |r| == 1 ==> r[0] == c as int
  {
    var n := c as int;
    if n < 0x80 then [n]
    else if n < 0x800 then [0xC0 + n / 64, 0x80 + n % 64]
    else if n < 0x10000 then [0xE0 + n / 4096, 0x80 + (n / 64) % 64, 0x80 + n % 64]
    else [0xF0 + n / 0x40000, 0x80 + (n / 4096) % 64, 0x80 + (n / 64) % 64, 0x80 + n % 64]
  }

  /** `s.encode("utf-8")`. */
  function Encode(s: string): (r: seq<byte>)
    ensures |s| <= |r| <= 4 * |s|
    ensures |s| == 0 <==> |r| == 0
  {
    if |s| == 0 then [] else EncodeChar(s[0]) + Encode(s[1..])
  }

  /** A continuation octet, `10xxxxxx`. */
  predicate IsCont(b: byte) {
    0x80 <= b < 0xC0
  }

  /**
   * The scalar value at the head of `b` and the number of octets it used,
   * or None when the head is not a well-formed sequence (a stray
   * continuation octet, a truncated sequence, an overlong form, a surrogate
   * or a value above U+10FFFF).
   */
  function DecodeOne(b: seq<byte>): (r: Option<(char, nat)>)
    ensures r.Some? ==> 1 <= r.value.1 <= 4 && r.value.1 <= |b|
  {
    if |b| == 0 then None
    else
      var b0 := b[0] as int;
      if b0 < 0x80 then Some((b0 as char, 1))
      else if 0xC2 <= b0 < 0xE0 then
        if |b| >= 2 && IsCont(b[1]) then
          Some((((b0 - 0xC0) * 64 + (b[1] as int - 0x80)) as char, 2))
        else None
      else if 0xE0 <= b0 < 0xF0 then
        if |b| >= 3 && IsCont(b[1]) && IsCont(b[2]) then
          var n := (b0 - 0xE0) * 4096 + (b[1] as int - 0x80) * 64 + (b[2] as int - 0x80);
          if 0x800 <= n && !(0xD800 <= n < 0xE000) then Some((n as char, 3)) else None
        else None
      else if 0xF0 <= b0 < 0xF5 then
        if |b| >= 4 && IsCont(b[1]) && IsCont(b[2]) && IsCont(b[3]) then
          var n := (b0 - 0xF0) * 0x40000 + (b[1] as int - 0x80) * 4096 + (b[2] as int - 0x80) * 64 + (b[3] as int - 0x80);
          if 0x10000 <= n < 0x110000 then Some((n as char, 4)) else None
        else None
      else None
  }

  /** `b.decode("utf-8")`: None where Python raises UnicodeDecodeError. */
  function Decode(b: seq<byte>): (r: Option<string>)
    ensures r.Some? ==> |r.value| <= |b|
    decreases |b|
  {
    if |b| == 0 then Some([])
    else match DecodeOne(b)
      case None => None
      case Some((c, k)) =>
        match Decode(b[k..])
        case None => None
        case Some(s) => Some([c] + s)
  }

  lemma DecodeOneTwoOctets(c: char, rest: seq<byte>)
    requires 0x80 <= c as int < 0x800
    ensures DecodeOne(EncodeChar(c) + rest) == Some((c, 2))
  {
    var n := c as int;
    var e := EncodeChar(c) + rest;
    assert e[0] == 0xC0 + n / 64 && e[1] == 0x80 + n % 64;
  }

  lemma DecodeOneThreeOctets(c: char, rest: seq<byte>)
    requires 0x800 <= c as int < 0x10000
    ensures DecodeOne(EncodeChar(c) + rest) == Some((c, 3))
  {
    var n := c as int;
    var e := EncodeChar(c) + rest;
    assert e[0] == 0xE0 + n / 4096 && e[1] == 0x80 + (n / 64) % 64 && e[2] == 0x80 + n % 64;
    assert n / 4096 == (n / 64) / 64;
  }

  lemma DecodeOneFourOctets(c: char, rest: seq<byte>)
    requires 0x10000 <= c as int
    ensures DecodeOne(EncodeChar(c) + rest) == Some((c, 4))
  {
    var n := c as int;
    var e := EncodeChar(c) + rest;
    assert e[0] == 0xF0 + n / 0x40000 && e[1] == 0x80 + (n / 4096) % 64;
    assert e[2] == 0x80 + (n / 64) % 64 && e[3] == 0x80 + n % 64;
    assert n / 4096 == (n / 64) / 64;
    assert n / 0x40000 == (n / 4096) / 64;
  }

  lemma DecodeOneEncodeChar(c: char, rest: seq<byte>)
    ensures DecodeOne(EncodeChar(c) + rest) == Some((c, |EncodeChar(c)|))
  {
    var n := c as int;
    if n < 0x80 {
      assert (EncodeChar(c) + rest)[0] == n;
    } else if n < 0x800 {
      DecodeOneTwoOctets(c, rest);
    } else if n < 0x10000 {
      DecodeOneThreeOctets(c, rest);
    } else {
      DecodeOneFourOctets(c, rest);
    }
  }

  /** Decoding what was encoded gives back the text. */
  lemma {:induction false} DecodeEncode(s: string)
    ensures Decode(Encode(s)) == Some(s)
  {
    if |s| > 0 {
      var e := Encode(s);
      assert e == EncodeChar(s[0]) + Encode(s[1..]);
      DecodeOneEncodeChar(s[0], Encode(s[1..]));
      assert e[|EncodeChar(s[0])|..] == Encode(s[1..]);
      DecodeEncode(s[1..]);
      assert [s[0]] + s[1..] == s;
    }
  }

  lemma EncodeCharTwoOctets(b: seq<byte>)
    requires DecodeOne(b).Some? && 0xC2 <= b[0] < 0xE0
    ensures EncodeChar(DecodeOne(b).value.0) == b[..2]
  {
    var n := (b[0] as int - 0xC0) * 64 + (b[1] as int - 0x80);
    assert DecodeOne(b).value.0 as int == n;
    assert n / 64 == b[0] - 0xC0 && n % 64 == b[1] - 0x80;
  }

  lemma EncodeCharThreeOctets(b: seq<byte>)
    requires DecodeOne(b).Some? && 0xE0 <= b[0] < 0xF0
    ensures EncodeChar(DecodeOne(b).value.0) == b[..3]
  {
    var b0 := b[0] as int;
    var n := (b0 - 0xE0) * 4096 + (b[1] as int - 0x80) * 64 + (b[2] as int - 0x80);
    assert DecodeOne(b).value.0 as int == n;
    assert n / 64 == (b0 - 0xE0) * 64 + (b[1] as int - 0x80);
    assert n / 4096 == b0 - 0xE0;
  }

  lemma EncodeCharFourOctets(b: seq<byte>)
    requires DecodeOne(b).Some? && 0xF0 <= b[0]
    ensures EncodeChar(DecodeOne(b).value.0) == b[..4]
  {
    var b0 := b[0] as int;
    var n := (b0 - 0xF0) * 0x40000 + (b[1] as int - 0x80) * 4096 + (b[2] as int - 0x80) * 64 + (b[3] as int - 0x80);
    assert DecodeOne(b).value.0 as int == n;
    assert n / 64 == (b0 - 0xF0) * 4096 + (b[1] as int - 0x80) * 64 + (b[2] as int - 0x80);
    assert n / 4096 == (b0 - 0xF0) * 64 + (b[1] as int - 0x80);
    assert n / 0x40000 == b0 - 0xF0;
  }

  /** A well-formed head re-encodes to exactly the octets it was decoded from. */
  lemma EncodeCharDecodeOne(b: seq<byte>)
    requires DecodeOne(b).Some?
    ensures EncodeChar(DecodeOne(b).value.0) == b[..DecodeOne(b).value.1]
  {
    var b0 := b[0] as int;
    if b0 < 0x80 {
    } else if b0 < 0xE0 {
      EncodeCharTwoOctets(b);
    } else if b0 < 0xF0 {
      EncodeCharThreeOctets(b);
    } else {
      EncodeCharFourOctets(b);
    }
  }

  /** One step of `Decode`: the head character, its length and the decoded rest. */
  lemma DecodeCons(b: seq<byte>) returns (c: char, k: nat, s: string)
    requires Decode(b).Some? && |b| > 0
    ensures DecodeOne(b) == Some((c, k)) && k <= |b|
    ensures Decode(b[k..]) == Some(s) && Decode(b).value == [c] + s
  {
    c, k := DecodeOne(b).value.0, DecodeOne(b).value.1;
    s := Decode(b[k..]).value;
  }

  // Plain sequence facts, stated once as lemmas over variables: the proofs that
  // call them stay small, because the verifier need not rediscover them on
  // large concrete terms.
  lemma SplitAt(b: seq<byte>, k: nat)
    requires k <= |b|
    ensures b[..k] + b[k..] == b
  {
  }

  lemma EncodeCons(c: char, s: string)
    ensures Encode([c] + s) == EncodeChar(c) + Encode(s)
  {
    assert ([c] + s)[1..] == s;
  }

  /** Any octets that decode are the encoding of what they decode to. */
  lemma {:induction false} EncodeDecode(b: seq<byte>)
    requires Decode(b).Some?
    ensures Encode(Decode(b).value) == b
    decreases |b|
  {
    if |b| > 0 {
      var c, k, s := DecodeCons(b);
      EncodeCharDecodeOne(b);
      EncodeDecode(b[k..]);
      EncodeCons(c, s);
      SplitAt(b, k);
    }
  }

  /** ASCII octets always decode, one character per octet. */
  lemma {:induction false} DecodeAscii(b: seq<byte>)
    requires IsAscii(b)
    ensures Decode(b).Some?
    ensures |Decode(b).value| == |b|
    ensures forall i :: 0 <= i < |b| ==> Decode(b).value[i] as int == b[i]
    decreases |b|
  {
    if |b| > 0 {
      assert IsAscii(b[1..]) by {
        forall i | 0 <= i < |b[1..]| ensures b[1..][i] < 0x80 {
          assert b[1..][i] == b[i + 1];
        }
      }
      DecodeAscii(b[1..]);
      var s := Decode(b[1..]).value;
      assert Decode(b) == Some([b[0] as char] + s);
    }
  }
}
